=== FILE: README.md ===
# Foodgram core, modelled in Dafny

Foodgram is a recipe site's REST backend. Users publish recipes, and each recipe is a list of ingredient lines, each with an amount. Users can also:

- follow authors;
- mark recipes as favorites;
- put recipes in a shopping cart;
- download the cart as a plain-text shopping list.

Ingredients on that list are grouped by name and unit, their amounts are summed, and the list is ordered by ingredient name.

This project models that core as pure functions over an immutable database value:

- a `Db` of users, tags, ingredients and recipes, keyed by id;
- the ingredient-line table;
- the three presence-marker tables: follows, favorites and cart.

Every endpoint is a function. It returns either a new database with a success status or a failure status, which leaves the database untouched. The modules follow the program's structure:

| file | module | what it holds |
|---|---|---|
| base.dfy | `Base` | `Option`, the HTTP statuses used, `Outcome` (success with a value, or failure) |
| seqs.dfy | `Seqs` | `FlatMap`, `Filter`, `NoDuplicates` and their permutation facts |
| strings.dfy | `Strings` | code-point string order, Python's `str(int)` with its parse-back, line splitting |
| domain.dfy | `Domain` | the entities, the integrity invariant `Valid`, cascade deletes |
| permissions.dfy | `Permissions` | `IsOwnerOrReadOnly`, `IsOwner` |
| validation.dfy | `Validation` | the serializers' `validate` hooks |
| presence.dfy | `Presence` | the shared create/destroy steps over a (user, target) table |
| markers.dfy | `Markers` | cart, favorite and follow endpoints |
| recipes.dfy | `RecipeWrite` | recipe create / update / delete, ingredient-line replacement |
| readfields.dfy | `ReadFields` | `is_favorited`, `is_in_shopping_cart`, `is_subscribed`, `recipes_count` |
| shopping_list.dfy | `ShoppingList` | the cart join, what a correct shopping list is, and its computation |
| export.dfy | `Export` | `download_shopping_cart`: empty-cart refusal and text rendering |
| accounts.dfy | `Accounts` | registration and password change |

The shopping list is specified by `IsShoppingListOf(gs, es)`. `es` holds the joined rows: cart row → recipe → ingredient line → ingredient. The predicate requires that `gs`:

- is sorted by name;
- has one group per (name, unit) key that occurs in `es`;
- gives each group its key's sum.

`Aggregate` computes such a list, and several lemmas show that the list is determined by the cart:

- two correct lists hold the same groups;
- neither the cart's row order nor other users' carts matter;
- putting a recipe in the cart adds exactly that recipe's amounts, and taking it out subtracts them.

The model follows the code where the code and its documentation could be read differently:

- A user is created with status 200, not 201.
- Grouping is by (name, unit), not by ingredient id.
- Ingredient amounts are not range-checked by the serializer, on create or on update (see Findings).
- The self-follow check compares an integer with the text of the URL (see Findings).

## Model

| member | source | states |
|---|---|---|
| Domain.DeleteRecipe | backend/foodgram/recipes/models.py:98-102 | deleting a recipe removes exactly its ingredient lines, favorites and cart rows; users, tags, ingredients and follows stay |
| Domain.DeleteRecipeKeepsValid | backend/foodgram/recipes/models.py:169-174 | the recipe cascade leaves no dangling line, favorite or cart row: the database stays valid |
| Domain.DeleteUser | backend/foodgram/recipes/models.py:49-54 | deleting a user removes their recipes (and with them those recipes' lines, favorites and cart rows), their follows in both directions, their favorites and cart rows; nothing else |
| Domain.DeleteUserKeepsValid | backend/foodgram/recipes/models.py:131-142 | the user cascade, through follows, favorites and cart rows, keeps every foreign key and uniqueness constraint |
| Domain.DeleteUserKeepsPairs | backend/foodgram/recipes/models.py:163-168 | after a user cascade every follow, favorite and cart row still points at existing rows and stays unique |
| Domain.DeleteUserKeepsRecipesAndLines | backend/foodgram/recipes/models.py:49-54 | after a user cascade every remaining recipe and ingredient line is still well formed |
| Domain.DeleteIngredient | backend/foodgram/recipes/models.py:103-107 | deleting an ingredient removes it and exactly the lines that use it; recipes, users, tags and marker tables stay |
| Domain.DeleteIngredientKeepsValid | backend/foodgram/recipes/models.py:103-107 | deleting an ingredient removes exactly its lines and keeps the database valid |
| Permissions.SafeMethodsAlwaysAllowed | backend/foodgram/api/permissions.py:6-8 | GET, HEAD and OPTIONS are allowed on any object for any requester |
| Permissions.WriteAllowedIffAuthor | backend/foodgram/api/permissions.py:9 | an unsafe method is allowed exactly when the requester is the object's author; anonymous requests never write |
| Permissions.OwnerOnlyDeniesWrites | backend/foodgram/api/permissions.py:14-18 | IsOwner allows exactly safe methods by the author, so it denies every unsafe method |
| Permissions.OwnerOnlyImpliesOwnerOrReadOnly | backend/foodgram/api/permissions.py:4-18 | whatever IsOwner allows, IsOwnerOrReadOnly allows too |
| Validation.ValidateRegistration | backend/foodgram/api/serializers.py:28-31 | registration data is refused exactly when the username is "me", and otherwise passes unchanged |
| Validation.ValidatePasswordChange | backend/foodgram/api/serializers.py:37-52 | accepted exactly when the new password differs from the current one and the current one matches the stored hash; equal passwords are the reason reported first |
| Validation.ValidateFollow | backend/foodgram/api/serializers.py:219-228 | accepted exactly when the user is not the author and no such follow exists; the reason names which check failed |
| Validation.ValidateFollowAsWritten | backend/foodgram/api/serializers.py:219-228 | as written, with the author id being URL text: refused exactly when the follow already exists; a self-follow passes |
| Validation.ValidateFavorite | backend/foodgram/api/serializers.py:259-268 | accepted exactly when the (user, recipe) favorite does not exist |
| Validation.ValidateCartItem | backend/foodgram/api/serializers.py:290-297 | accepted exactly when the (user, recipe) cart row does not exist |
| Presence.Remove | backend/foodgram/api/mixins.py:50-54 | removing a row keeps every other row and only those, and keeps the table duplicate-free |
| Presence.RemoveCounts | backend/foodgram/api/mixins.py:50-54 | in a duplicate-free table, the removed row is exactly one occurrence: table = rest + that row, as multisets |
| Presence.PerformCreate | backend/foodgram/api/mixins.py:34-42 | 404 exactly when the URL's target is missing; otherwise the table gains exactly the (acting user, target) row |
| Presence.Destroy | backend/foodgram/api/mixins.py:44-55 | 400 exactly when the row is absent; otherwise exactly that row goes, everything else stays, and the table shrinks by one |
| Markers.AddToCart | backend/foodgram/api/serializers.py:290-297 | refused (400 if already carted, else 404 for a missing recipe) exactly in those cases; otherwise exactly one cart row is added, nothing else changes, and validity is kept |
| Markers.RemoveFromCart | backend/foodgram/api/views.py:173-175 | 400 exactly when not carted; otherwise 204, exactly that row removed, validity kept |
| Markers.AddFavoriteAsWritten | backend/foodgram/api/mixins.py:34-42 | as written, a favorite is never stored: 400 if present, 404 if the recipe is missing, 500 otherwise |
| Markers.RemoveFavoriteAsWritten | backend/foodgram/api/mixins.py:44-49 | as written, removing a favorite always answers 500 |
| Markers.AddFavorite | backend/foodgram/api/serializers.py:259-268 | corrected favorite create: 400 when present, 404 for a missing recipe, otherwise exactly one favorite row added |
| Markers.RemoveFavorite | backend/foodgram/api/views.py:160-162 | corrected favorite destroy: 400 when absent, otherwise exactly that row removed, validity kept |
| Markers.Follow | backend/foodgram/api/views.py:127-134 | 400 for a self-follow or a second follow, 404 for an unknown author, otherwise exactly the (acting user, author) row added and validity kept |
| Markers.FollowAsWritten | backend/foodgram/api/views.py:122-134 | as written: 400 only for a second follow, 404 for an unknown author, otherwise the (acting user, author) row is added, even when the two are the same user |
| Markers.SelfFollowStoredAsWritten | backend/foodgram/api/serializers.py:219-224 | for any existing user not yet following themselves, the code as written stores the self-follow and breaks the no-self-follow invariant, while the corrected endpoint answers 400 |
| Markers.Unfollow | backend/foodgram/api/views.py:136-147 | 404 for an unknown author, 400 when not following (follows unchanged), otherwise 204 with exactly that pair removed |
| Markers.FavoritesNeverStoredAsWritten | backend/foodgram/recipes/models.py:169-174 | for any existing, not yet favorited recipe the code as written answers 500 to both add and remove, while the corrected endpoints store and then remove the row |
| RecipeWrite.LinesFor | backend/foodgram/api/serializers.py:150-155 | one line per submitted ingredient, in order, carrying its id and amount |
| RecipeWrite.CreateIngredients | backend/foodgram/api/serializers.py:150-155 | inserting the submitted lines succeeds exactly when every id exists, every amount fits the column and no (recipe, ingredient) pair repeats; then the table grows by exactly those lines |
| RecipeWrite.StoreRecipe | backend/foodgram/api/serializers.py:157-163 | storing a validated recipe fails with 500 exactly when its lines cannot be inserted; otherwise only the recipe and its lines are added |
| RecipeWrite.CreateRecipeAsWritten | backend/foodgram/api/views.py:35-36 | as written: 401 for anonymous requests, 400 on a blank or over-long name, a blank text, the cooking time or unknown tags, otherwise 500 exactly when the lines cannot be stored; on success 201, only the recipe table and the line table change, the new recipe holds the acting user as author with the submitted name, text, cooking time and tags, and the line table gains exactly the submitted lines, whatever their amounts |
| RecipeWrite.CreateRecipe | backend/foodgram/api/serializers.py:157-163 | corrected create: the same field checks, blank name or text included, and also amounts below 1 refused with 400; 500 remains only for lines that cannot be stored; on success the new recipe's author is the acting user and the table gains exactly its lines |
| RecipeWrite.CreateRecipeKeepsValid | backend/foodgram/recipes/models.py:108-122 | a successful corrected create keeps amounts at least 1, cooking times at least 1 and (recipe, ingredient) pairs unique |
| RecipeWrite.ReplaceLines | backend/foodgram/api/serializers.py:166-168 | with ingredients, the recipe's old lines are cleared and afterwards it owns exactly the submitted ones while other recipes' lines stay; without, the table is unchanged |
| RecipeWrite.StorePatch | backend/foodgram/api/serializers.py:165-172 | storing a checked patch fails with 500 exactly when the submitted lines cannot be stored; otherwise the recipe is patched and, when ingredients are given, it owns exactly the submitted lines while other recipes' lines stay |
| RecipeWrite.UpdateRecipeAsWritten | backend/foodgram/api/serializers.py:165-172 | as written: 401/404/403 in that order, 400 for missing or invalid fields other than amounts (a given name or text that is blank included), then 500 exactly when the lines cannot be stored; on success 200, only the recipe and line tables change, the recipe is patched, the lines stay when no ingredients are given, and otherwise other recipes' lines stay and the recipe owns exactly the submitted lines, whatever their amounts |
| RecipeWrite.UpdateRecipe | backend/foodgram/api/serializers.py:165-172 | corrected update: 401/404/403/400 in that order, with a blank given name or text and amounts below 1 refused by 400; a checked update by the author fails exactly when the lines cannot be stored, and then with 500; on success the author stays, given fields replace stored ones, tags are replaced only when given, and the recipe's lines are exactly the submitted ones when ingredients are given |
| RecipeWrite.UpdateRecipeKeepsValid | backend/foodgram/recipes/models.py:108-122 | a successful corrected update keeps the database valid, including (recipe, ingredient) uniqueness after the wholesale replacement |
| RecipeWrite.DestroyRecipe | backend/foodgram/api/views.py:25-27 | 401/404/403 in that order; the author's delete always succeeds with 204 and cascades |
| RecipeWrite.ZeroAmountStoredAsWritten | backend/foodgram/api/serializers.py:117-123 | a concrete valid database where the code as written stores an amount of 0 and breaks validity, and the corrected create refuses it with 400 |
| RecipeWrite.ZeroAmountUpdateStoredAsWritten | backend/foodgram/api/serializers.py:165-169 | a concrete valid database where the author's update to an amount of 0 is stored by the code as written and breaks validity, and the corrected update refuses it with 400 |
| RecipeWrite.NegativeAmountUpdateAsWritten | backend/foodgram/api/serializers.py:165-169 | on the same database an amount of -1 passes the code's checks and fails only at the column with 500, where the corrected update answers 400 |
| ReadFields.IsFavorited | backend/foodgram/api/serializers.py:98-105 | false for anonymous requests |
| ReadFields.IsInShoppingCart | backend/foodgram/api/serializers.py:107-114 | false for anonymous requests |
| ReadFields.IsSubscribed | backend/foodgram/api/mixins.py:18-24 | false for anonymous requests |
| ReadFields.RecipesCount | backend/foodgram/api/serializers.py:236-237 | the number of recipes whose author is the given user, hence never more than the number of recipes |
| ReadFields.Subscriptions | backend/foodgram/api/views.py:102-113 | the subscriptions listing holds exactly the requester's follow rows, in an order left open |
| ReadFields.SubscriptionsReadSubscribed | backend/foodgram/api/mixins.py:18-24 | every row of the subscriptions listing reads is_subscribed true for its requester, and a requester is subscribed to an author exactly when the listing has a row for that author |
| ReadFields.FavoritedAfterAdd | backend/foodgram/api/serializers.py:98-105 | after a successful favorite the recipe reads as favorited for that user, and every other answer is unchanged |
| ReadFields.NotFavoritedAfterRemove | backend/foodgram/api/serializers.py:98-105 | after a successful removal it reads as not favorited, and every other answer is unchanged |
| ReadFields.InCartAfterAdd | backend/foodgram/api/serializers.py:107-114 | after a successful cart add the recipe reads as in the cart for that user only |
| ReadFields.NotInCartAfterRemove | backend/foodgram/api/serializers.py:107-114 | after a successful cart removal it reads as not in the cart, and every other answer is unchanged |
| ReadFields.SubscribedAfterFollow | backend/foodgram/api/mixins.py:18-24 | after a follow the requester is subscribed to that author, and every other answer is unchanged |
| ReadFields.NotSubscribedAfterUnfollow | backend/foodgram/api/mixins.py:18-24 | after an unfollow the requester is not subscribed, and every other answer is unchanged |
| ReadFields.RecipesCountAfterCreate | backend/foodgram/api/serializers.py:236-237 | creating a recipe adds one to the acting user's count and leaves others alone |
| ReadFields.RecipesCountAfterDestroy | backend/foodgram/api/serializers.py:236-237 | deleting a recipe takes one from its author's count only |
| ReadFields.RecipesCountAfterUpdate | backend/foodgram/api/serializers.py:236-237 | an update never changes any author's count |
| ReadFields.NothingLeftAfterDeleteUser | backend/foodgram/recipes/models.py:131-142 | after deleting a user: zero recipes, no favorite or cart mark, no subscription either way |
| ShoppingList.Aggregate | backend/foodgram/api/views.py:53-55 | the computed list is sorted by name, has one group per occurring (name, unit) key and each key's total is the sum of its rows |
| ShoppingList.AggregateIsShoppingList | backend/foodgram/api/views.py:49-55 | the computed list meets the specification of a shopping list of its rows |
| ShoppingList.ShoppingListMembers | backend/foodgram/api/views.py:53-55 | a group is in a correct list exactly when its key occurs among the rows and its total is that key's sum |
| ShoppingList.ShoppingListUnique | backend/foodgram/api/views.py:53-55 | two correct lists of the same rows hold the same groups and have equal length |
| ShoppingList.OneGroupPerKey | backend/foodgram/api/views.py:49-54 | each occurring (name, unit) gets exactly one line, so ingredients with equal name and unit merge |
| ShoppingList.SumForPermutation | backend/foodgram/api/views.py:54 | the sums do not depend on the order of the rows |
| ShoppingList.ShoppingListPermutation | backend/foodgram/api/views.py:53-55 | reordering the rows does not change which lists are correct |
| ShoppingList.CartOrderIrrelevant | backend/foodgram/api/views.py:53-55 | reordering the cart rows only reorders the joined rows, so the same lists are correct |
| ShoppingList.JoinedFromLines | backend/foodgram/api/views.py:53 | every joined row comes from a stored line of a recipe in this user's cart |
| ShoppingList.TotalsPositive | backend/foodgram/recipes/models.py:108-113 | in a valid database every group total is at least 1 |
| Export.RenderLines | backend/foodgram/api/views.py:48 | when no ingredient name or unit contains a newline, the text is the title, an empty line, then exactly one line per group in list order |
| Export.BodyLines | backend/foodgram/api/views.py:56-60 | the body has exactly one newline-terminated line per group, in order |
| Export.TotalReadsBack | backend/foodgram/api/views.py:57-59 | the text after the last space of a group's line is its total in decimal, and it parses back to the total |
| Export.CartEmptyIff | backend/foodgram/api/views.py:44 | the user has no cart row exactly when no carted recipe is joined |
| Export.DownloadShoppingCart | backend/foodgram/api/views.py:42-64 | 401 for anonymous requests; 400 with the empty-list message exactly when the user has no cart row; otherwise a text/plain attachment named shopping_list.txt whose groups are a correct list of the joined rows, rendered |
| Export.DownloadDeterminedByCart | backend/foodgram/api/views.py:53-55 | downloads of carts with the same rows in different orders list the same groups |
| Export.JoinedAfterAppend | backend/foodgram/api/views.py:53-55 | a cart that gained one row has each total raised by that recipe's amounts for its user only |
| Export.AddToCartTotals | backend/foodgram/api/mixins.py:34-42 | a successful cart add raises the user's totals by exactly that recipe's amounts and changes nobody else's |
| Export.RemoveFromCartTotals | backend/foodgram/api/mixins.py:44-55 | a successful cart removal lowers the user's totals by exactly that recipe's amounts and changes nobody else's |
| Accounts.Register | backend/foodgram/api/serializers.py:23-31 | 400 exactly when a field is missing, blank or too long, the email is malformed, the username or email is taken, or the username is "me"; otherwise 200 with exactly the new user added |
| Accounts.RegisterKeepsValid | backend/foodgram/users/models.py:8-27 | registration keeps usernames and emails unique and never stores "me" |
| Accounts.ChangePassword | backend/foodgram/api/serializers.py:34-52 | refused when either password is blank, and otherwise exactly when `validate` refuses, with its reason; otherwise only the user's stored hash changes |
| Accounts.ChangePasswordKeepsValid | backend/foodgram/api/serializers.py:37-52 | a password change keeps the database valid |

## Left out

- HTTP routing, pagination, filtering, response bodies and DRF field mapping. Only the statuses and the values named in the contracts are modelled. The filter classes are not part of this model.
- Image upload and its base64 decoding. These are library calls plus file storage.
- Password hashing. The hash check is a function parameter `checkPassword`, and a new hash is passed in as a value.
- Carted recipes without ingredient lines. The shopping-list query is an outer join, so a carted recipe with no ingredient lines would add one group whose name, unit and sum are all NULL. The model joins only existing lines, and that NULL group is left out. Where the database sorts NULLs depends on the engine.
- Database collation. `Lt` compares strings by code point, and the model assumes the database orders names the same way.
- The order of groups that share a name but have different units. The query leaves it unspecified, so `IsShoppingListOf` allows any order among them.
- The column range of ingredient amounts. `MaxSmallAmount` (32767) and the refusal of negative amounts assume a database that enforces the range of a positive small-integer column, as PostgreSQL does. The database settings are not part of this model.
- Accounts.Register: surrounding whitespace is not stripped before the checks, so a value is blank only when it is empty. The framework's email format is the parameter `isEmail`.
- The upper bound of the cooking time. The integer-column limit of the cooking time is not checked; the name's `max_length` is.
- RecipeWrite.CreateRecipeAsWritten, RecipeWrite.CreateRecipe, RecipeWrite.UpdateRecipeAsWritten, RecipeWrite.UpdateRecipe: the serializer strips surrounding whitespace from the name and text before its checks and stores the stripped value. The model neither strips nor stores stripped values, so a name or text is blank only when it is empty.
- Accounts.ChangePassword: the password fields also strip surrounding whitespace, so a whitespace-only password is refused by the framework. The model treats only the empty string as blank.
- Anonymous requests to the favorite, cart and subscribe endpoints. The favorite and cart views require an authenticated user and answer 401 otherwise. The subscribe view declares no permission classes, so its permission comes from the project settings, which are not part of this model. `Markers` takes the acting user's id, so its members model authenticated requesters only.
- Results that assume `Domain.Valid`, such as `ShoppingList.TotalsPositive`: they describe the corrected program. The minimum amount and the ban on self-follows are kept by validation, not by the database, and the code as written can break both (see Findings).
- Publication dates and `created` timestamps. They only feed default orderings.
- Partial writes. A write that fails part-way is assumed to roll back, so every failure leaves the database unchanged. Whether requests run in a transaction is a settings question.
- Framework-supplied parts of the user endpoints, from djoser, a library whose source is not part of this model:
  - Registration is assumed open to anonymous requests.
  - Password change is modelled at the level of its validation and stored hash, without a response status.
- The URL configuration, which is not part of this model. The follow endpoints take the author id from the URL. `Follow` and `Unfollow` treat it as an id, and `FollowAsWritten` models the self-follow check as comparing an integer with the text the router captures (see Findings).
- The admin configuration and the ingredient loading command. They are display settings and file I/O. The admin's favorite counter also filters on a field named `recipe`, which the favorite model lacks.
- Deleting a tag. It only removes the tag from recipes' tag sets through the many-to-many table, and it is not modelled.
- Other export formats. Only the plain-text shopping list exists.
- ReadFields.IsFavorited: the contract states only the anonymous case. The member case, which is membership of the (user, recipe) pair, is stated by the FavoritedAfterAdd and NotFavoritedAfterRemove lemmas rather than in the contract.
- ReadFields.IsInShoppingCart: as for IsFavorited, the member case is stated by InCartAfterAdd and NotInCartAfterRemove.
- ReadFields.IsSubscribed: as for IsFavorited, the member case is stated by SubscribedAfterFollow and NotSubscribedAfterUnfollow.
- ShoppingList.ShoppingListUnique: shows that two correct lists hold the same groups and have equal length, not that they are equal sequences. Groups that share a name may legitimately come in either order.

## Findings

| source | as written | input that shows it | evidently intended | confidence | as-written member | corrected member |
|---|---|---|---|---|---|---|
| backend/foodgram/api/mixins.py:34-55 with backend/foodgram/recipes/models.py:169-174 | The shared create step saves the row with a `recipe=` keyword, and the shared destroy step filters on `recipe_id`. The favorite model's field is named `favorite_recipe`, so both raise. A favorite can never be added (500 after validation) or removed (always 500). | any authenticated user adding an existing recipe they have not favorited | favorites are stored and removed like cart rows | not executed | Markers.AddFavoriteAsWritten, Markers.RemoveFavoriteAsWritten, Markers.FavoritesNeverStoredAsWritten | Markers.AddFavorite, Markers.RemoveFavorite |
| backend/foodgram/api/serializers.py:117-123 with backend/foodgram/api/serializers.py:150-155 and backend/foodgram/recipes/models.py:108-113 | The ingredient input declares `amount` as a bare integer field, so the model's minimum of 1 is never checked. `objects.create` does not run field validators, and the column accepts 0. | creating a recipe with ingredients `[{id: 7, amount: 0}]`, or its author patching it to `[{id: 7, amount: 0}]` | amounts below 1 are refused with 400 | not executed | RecipeWrite.CreateRecipeAsWritten, RecipeWrite.ZeroAmountStoredAsWritten, RecipeWrite.UpdateRecipeAsWritten, RecipeWrite.ZeroAmountUpdateStoredAsWritten, RecipeWrite.NegativeAmountUpdateAsWritten | RecipeWrite.CreateRecipe, RecipeWrite.CreateRecipeKeepsValid, RecipeWrite.UpdateRecipe, RecipeWrite.UpdateRecipeKeepsValid |
| backend/foodgram/api/serializers.py:219-224 with backend/foodgram/api/views.py:122-125 | The follow serializer compares `user.id`, an integer, with the author id the view copies from the URL keyword arguments. A router captures that value as text, and in Python an integer never equals a string, so the self-follow check never fires. The duplicate check and the author lookup coerce the text and work. | user 5 posting to their own subscribe URL, `users/5/subscribe/` | a self-follow is refused with 400 | not executed; holds when the route captures the id as text, and the URL configuration is not part of this model | Validation.ValidateFollowAsWritten, Markers.FollowAsWritten, Markers.SelfFollowStoredAsWritten | Validation.ValidateFollow, Markers.Follow |

=== FILE: accounts.dfy ===
/** Registration and password change on the user endpoints. The password
    hash is supplied by the caller: hashing is not modelled. */
module Accounts {
  import opened Base
  import opened Domain
  import opened Validation

  predicate UsernameTaken(db: Db, name: string) {
    exists u :: u in db.users && db.users[u].username == name
  }

  predicate EmailTaken(db: Db, email: string) {
    exists u :: u in db.users && db.users[u].email == email
  }

  /** No stored user is called by the reserved name. */
  predicate NoReservedUsername(db: Db) {
    forall u :: u in db.users ==> db.users[u].username != ReservedUsername
  }

  /** POST on users: the per-field checks and the unique-field checks, then
      the serializer's validate, then the user is stored under the fresh key
      `id` with the password hash `hash`. `isEmail` is the framework's email
      validator. Success answers 200, not 201. */
  function Register(db: Db, data: Registration, id: UserId, hash: string, isEmail: string -> bool): (r: Outcome<Db>)
    requires id !in db.users
    ensures r.Fail? <==> || !RegistrationFieldsValid(data, isEmail)
                         || UsernameTaken(db, data.username) || EmailTaken(db, data.email)
                         || data.username == ReservedUsername
    ensures r.Fail? ==> r.status == BadRequest400
    ensures r.Ok? ==> r.status == Ok200 && r.value == db.(users := r.value.users)
    ensures r.Ok? ==> r.value.users == db.users[id := User(data.username, data.email, hash)]
  {
    if !RegistrationFieldsValid(data, isEmail) then Fail(BadRequest400)
    else if UsernameTaken(db, data.username) || EmailTaken(db, data.email) then Fail(BadRequest400)
    else
      match ValidateRegistration(data)
      case Refuse(_) => Fail(BadRequest400)
      case Pass(d) => Ok(Ok200, db.(users := db.users[id := User(d.username, d.email, hash)]))
  }

  /** A registration keeps usernames and emails unique and never stores the
      reserved username. */
  lemma RegisterKeepsValid(db: Db, data: Registration, id: UserId, hash: string, isEmail: string -> bool)
    requires id !in db.users && Valid(db)
    ensures Register(db, data, id, hash, isEmail).Ok? ==> Valid(Register(db, data, id, hash, isEmail).value)
    ensures Register(db, data, id, hash, isEmail).Ok? && NoReservedUsername(db) ==>
      NoReservedUsername(Register(db, data, id, hash, isEmail).value)
  {
    var r := Register(db, data, id, hash, isEmail);
    if r.Ok? {
      var d := r.value;
      forall a, b | a in d.users && b in d.users && a != b
        ensures d.users[a].username != d.users[b].username && d.users[a].email != d.users[b].email
      {
        if a == id {
          assert b in db.users;
        } else if b == id {
          assert a in db.users;
        }
      }
      forall rid | rid in d.recipes ensures RecipeOk(d, d.recipes[rid]) {
        assert RecipeOk(db, db.recipes[rid]);
      }
      forall l | l in d.lines ensures LineOk(d, l) {
        assert LineOk(db, l);
      }
    }
  }

  /** Setting a new password: both password fields are required and may
      not be blank, which the serializer's fields check before its
      `validate` runs; then refused exactly when `validate` refuses;
      otherwise only the user's stored hash changes, to `newHash`. */
  function ChangePassword(db: Db, user: UserId, data: PasswordChange, newHash: string, checkPassword: (string, string) -> bool): (r: Checked<Db>)
    requires user in db.users
    ensures r.Pass? <==> && data.newPassword != "" && data.currentPassword != ""
                         && data.newPassword != data.currentPassword
                         && checkPassword(data.currentPassword, db.users[user].password)
    ensures r.Refuse? ==> r.reason == if data.newPassword == "" || data.currentPassword == "" then BlankField
                                      else if data.newPassword == data.currentPassword then SamePassword
                                      else WrongPassword
    ensures r.Pass? ==> r.value == db.(users := r.value.users) && r.value.users.Keys == db.users.Keys
    ensures r.Pass? ==> r.value.users[user].password == newHash
    ensures r.Pass? ==> forall u :: u in db.users && u != user ==> r.value.users[u] == db.users[u]
  {
    if data.newPassword == "" || data.currentPassword == "" then Refuse(BlankField)
    else
      match ValidatePasswordChange(data, db.users[user].password, checkPassword)
      case Refuse(why) => Refuse(why)
      case Pass(_) => Pass(db.(users := db.users[user := db.users[user].(password := newHash)]))
  }

  lemma ChangePasswordKeepsValid(db: Db, user: UserId, data: PasswordChange, newHash: string, checkPassword: (string, string) -> bool)
    requires user in db.users && Valid(db)
    ensures ChangePassword(db, user, data, newHash, checkPassword).Pass? ==>
            Valid(ChangePassword(db, user, data, newHash, checkPassword).value)
  {
    var r := ChangePassword(db, user, data, newHash, checkPassword);
    if r.Pass? {
      var d := r.value;
      forall a, b | a in d.users && b in d.users && a != b
        ensures d.users[a].username != d.users[b].username && d.users[a].email != d.users[b].email
      {
        assert d.users[a].username == db.users[a].username && d.users[a].email == db.users[a].email;
        assert d.users[b].username == db.users[b].username && d.users[b].email == db.users[b].email;
      }
      forall rid | rid in d.recipes ensures RecipeOk(d, d.recipes[rid]) {
        assert RecipeOk(db, db.recipes[rid]);
      }
      forall l | l in d.lines ensures LineOk(d, l) {
        assert LineOk(db, l);
      }
    }
  }
}

=== FILE: base.dfy ===
/** Small shared vocabulary: optional values, response statuses and endpoint outcomes. */
module Base {

  datatype Option<+T> = None | Some(value: T) {
    function GetOr(default: T): T {
      match this
      case Some(v) => v
      case None => default
    }
  }

  /** The HTTP statuses the modelled endpoints answer with. */
  datatype Status =
    | Ok200
    | Created201
    | NoContent204
    | BadRequest400
    | Unauthorized401
    | Forbidden403
    | NotFound404
    | ServerError500

  predicate IsClientError(s: Status) {
    s == BadRequest400 || s == Unauthorized401 || s == Forbidden403 || s == NotFound404
  }

  /** A state-changing endpoint either succeeds with a status and the new
      value, or fails with an error status and leaves everything as it was. */
  datatype Outcome<+T> = Ok(status: Status, value: T) | Fail(status: Status)
}

=== FILE: domain.dfy ===
/** The recipe database: users, tags, ingredients, recipes, the ingredient
    lines joining recipes to ingredients, and the three presence-marker
    tables (follows, favorites, shopping cart). `Valid` collects the
    integrity constraints the storage layer keeps, together with the
    minimums that only validators and endpoint checks keep; the cascade
    deletions model the foreign keys declared with on_delete=CASCADE. */
module Domain {
  import opened Seqs

  type UserId = nat
  type TagId = nat
  type IngredientId = nat
  type RecipeId = nat

  /** Both minimums come from MinValueValidator(1) on the model fields.
      They are validator constraints, not column constraints: the recipe
      serializer checks the cooking time, but nothing checks the amount
      of an ingredient line, and `objects.create` skips validators, so the
      code as written can store amount 0 (see `RecipeWrite.CreateRecipeAsWritten`). */
  const MinCookingTime: int := 1
  const MinAmount: int := 1
  /** Largest value a PositiveSmallIntegerField column can hold. */
  const MaxSmallAmount: int := 32767

  /** `password` is the stored hash, never the clear text. */
  datatype User = User(username: string, email: string, password: string)

  datatype Tag = Tag(name: string, color: string, slug: string)

  datatype Ingredient = Ingredient(name: string, unit: string)

  datatype Recipe = Recipe(author: UserId, name: string, text: string, cookingTime: int, tags: set<TagId>)

  /** One IngredientsAmount row: how much of an ingredient a recipe uses. */
  datatype Line = Line(recipe: RecipeId, ingredient: IngredientId, amount: int)

  /** One presence-marker row: Follow(user, author), FavoriteRecipe(user, recipe)
      or ShoppingCart(user, recipe). */
  datatype Pair = Pair(user: UserId, target: nat)

  /** The identity behind a request: anonymous, or an authenticated user. */
  datatype Requester = Anonymous | Member(id: UserId)

  /** Tables keyed by id are maps; row tables are sequences in insertion order. */
  datatype Db = Db(
    users: map<UserId, User>,
    tags: map<TagId, Tag>,
    ingredients: map<IngredientId, Ingredient>,
    recipes: map<RecipeId, Recipe>,
    lines: seq<Line>,
    follows: seq<Pair>,
    favorites: seq<Pair>,
    cart: seq<Pair>)

  /** Tag name, color and slug are each unique across tags. */
  predicate TagsUnique(tags: map<TagId, Tag>) {
    forall a, b :: a in tags && b in tags && a != b ==>
      tags[a].name != tags[b].name && tags[a].color != tags[b].color && tags[a].slug != tags[b].slug
  }

  /** Usernames and emails are each unique across users. */
  predicate UsersUnique(users: map<UserId, User>) {
    forall a, b :: a in users && b in users && a != b ==>
      users[a].username != users[b].username && users[a].email != users[b].email
  }

  predicate RecipeOk(db: Db, r: Recipe) {
    r.author in db.users && r.cookingTime >= MinCookingTime && r.tags <= db.tags.Keys
  }

  predicate LineOk(db: Db, l: Line) {
    l.recipe in db.recipes && l.ingredient in db.ingredients && MinAmount <= l.amount <= MaxSmallAmount
  }

  /** At most one line per (recipe, ingredient) pair. */
  predicate LineKeysUnique(lines: seq<Line>) {
    && NoDuplicates(lines)
    && forall a, b :: a in lines && b in lines && a.recipe == b.recipe && a.ingredient == b.ingredient ==> a == b
  }

  /** Each (user, target) pair occurs at most once and both ends exist. */
  predicate PairsOk(t: seq<Pair>, users: set<UserId>, targets: set<nat>) {
    NoDuplicates(t) && forall p :: p in t ==> p.user in users && p.target in targets
  }

  predicate NoSelfFollow(follows: seq<Pair>) {
    forall p :: p in follows ==> p.user != p.target
  }

  /** The integrity of the database. Uniqueness, foreign keys and column
      ranges are storage constraints. The minimum cooking time and the
      minimum amount are validator constraints, and `NoSelfFollow` is kept
      by the follow endpoint's validation once its self-follow check
      compares ids. The code as written can break the minimum amount (see
      `RecipeWrite.ZeroAmountStoredAsWritten`) and `NoSelfFollow` (see
      `Markers.SelfFollowStoredAsWritten`), so every result that assumes
      `Valid` describes the corrected program. */
  predicate Valid(db: Db) {
    && TagsUnique(db.tags)
    && UsersUnique(db.users)
    && (forall id :: id in db.recipes ==> RecipeOk(db, db.recipes[id]))
    && (forall l :: l in db.lines ==> LineOk(db, l))
    && LineKeysUnique(db.lines)
    && PairsOk(db.follows, db.users.Keys, db.users.Keys)
    && NoSelfFollow(db.follows)
    && PairsOk(db.favorites, db.users.Keys, db.recipes.Keys)
    && PairsOk(db.cart, db.users.Keys, db.recipes.Keys)
  }

  function OfRecipe(r: RecipeId): Line -> bool {
    (l: Line) => l.recipe == r
  }

  function NotOfRecipe(r: RecipeId): Line -> bool {
    (l: Line) => l.recipe != r
  }

  /** The ingredient lines of one recipe, in table order. */
  function LinesOf(lines: seq<Line>, r: RecipeId): seq<Line> {
    Filter(lines, OfRecipe(r))
  }

  /** Deleting a recipe cascades to its ingredient lines, favorites and cart rows. */
  function DeleteRecipe(db: Db, r: RecipeId): (d: Db)
    ensures d.recipes == db.recipes - {r}
    ensures forall l :: l in d.lines <==> l in db.lines && l.recipe != r
    ensures forall p :: p in d.favorites <==> p in db.favorites && p.target != r
    ensures forall p :: p in d.cart <==> p in db.cart && p.target != r
    ensures d.users == db.users && d.tags == db.tags && d.ingredients == db.ingredients && d.follows == db.follows
    ensures NoDuplicates(db.lines) ==> NoDuplicates(d.lines)
    ensures NoDuplicates(db.favorites) ==> NoDuplicates(d.favorites)
    ensures NoDuplicates(db.cart) ==> NoDuplicates(d.cart)
  {
    var other := (p: Pair) => p.target != r;
    FilterNoDuplicates(db.lines, NotOfRecipe(r));
    FilterNoDuplicates(db.favorites, other);
    FilterNoDuplicates(db.cart, other);
    db.(recipes := db.recipes - {r},
        lines := Filter(db.lines, NotOfRecipe(r)),
        favorites := Filter(db.favorites, other),
        cart := Filter(db.cart, other))
  }

  /** The recipes a user authored. */
  function OwnedRecipes(db: Db, u: UserId): (owned: set<RecipeId>)
    ensures forall r :: r in owned <==> r in db.recipes && db.recipes[r].author == u
  {
    set r | r in db.recipes && db.recipes[r].author == u
  }

  /** Deleting a user cascades to their recipes (and, through those, to the
      recipes' lines, favorites and cart rows), to follows in which they are
      follower or author, and to their own favorites and cart rows. */
  function DeleteUser(db: Db, u: UserId): (d: Db)
    ensures d.users == db.users - {u}
    ensures forall r :: r in d.recipes <==> r in db.recipes && db.recipes[r].author != u
    ensures forall r :: r in d.recipes ==> d.recipes[r] == db.recipes[r]
    ensures forall l :: l in d.lines <==> l in db.lines && l.recipe !in OwnedRecipes(db, u)
    ensures forall p :: p in d.follows <==> p in db.follows && p.user != u && p.target != u
    ensures forall p :: p in d.favorites <==> p in db.favorites && p.user != u && p.target !in OwnedRecipes(db, u)
    ensures forall p :: p in d.cart <==> p in db.cart && p.user != u && p.target !in OwnedRecipes(db, u)
    ensures d.tags == db.tags && d.ingredients == db.ingredients
    ensures NoDuplicates(db.lines) ==> NoDuplicates(d.lines)
    ensures NoDuplicates(db.follows) ==> NoDuplicates(d.follows)
    ensures NoDuplicates(db.favorites) ==> NoDuplicates(d.favorites)
    ensures NoDuplicates(db.cart) ==> NoDuplicates(d.cart)
  {
    var owned := OwnedRecipes(db, u);
    var keepLine := (l: Line) => l.recipe !in owned;
    var keepFollow := (p: Pair) => p.user != u && p.target != u;
    var keepMarker := (p: Pair) => p.user != u && p.target !in owned;
    FilterNoDuplicates(db.lines, keepLine);
    FilterNoDuplicates(db.follows, keepFollow);
    FilterNoDuplicates(db.favorites, keepMarker);
    FilterNoDuplicates(db.cart, keepMarker);
    db.(users := db.users - {u},
        recipes := db.recipes - owned,
        lines := Filter(db.lines, keepLine),
        follows := Filter(db.follows, keepFollow),
        favorites := Filter(db.favorites, keepMarker),
        cart := Filter(db.cart, keepMarker))
  }

  /** Deleting an ingredient cascades to the lines that use it. */
  function DeleteIngredient(db: Db, i: IngredientId): (d: Db)
    ensures d.ingredients == db.ingredients - {i}
    ensures forall l :: l in d.lines <==> l in db.lines && l.ingredient != i
    ensures d.recipes == db.recipes && d.users == db.users && d.tags == db.tags
    ensures d.follows == db.follows && d.cart == db.cart && d.favorites == db.favorites
    ensures NoDuplicates(db.lines) ==> NoDuplicates(d.lines)
  {
    var keep := (l: Line) => l.ingredient != i;
    FilterNoDuplicates(db.lines, keep);
    db.(ingredients := db.ingredients - {i},
        lines := Filter(db.lines, keep))
  }

  /** Replacing one marker table by a table that meets that table's own
      constraints keeps the database valid; nothing else depends on it. */
  lemma SetFollowsKeepsValid(db: Db, t: seq<Pair>)
    ensures Valid(db) && PairsOk(t, db.users.Keys, db.users.Keys) && NoSelfFollow(t) ==> Valid(db.(follows := t))
  {
    if Valid(db) {
      var d := db.(follows := t);
      forall id | id in d.recipes ensures RecipeOk(d, d.recipes[id]) {
        assert RecipeOk(db, db.recipes[id]);
      }
      forall l | l in d.lines ensures LineOk(d, l) {
        assert LineOk(db, l);
      }
    }
  }

  lemma SetFavoritesKeepsValid(db: Db, t: seq<Pair>)
    ensures Valid(db) && PairsOk(t, db.users.Keys, db.recipes.Keys) ==> Valid(db.(favorites := t))
  {
    if Valid(db) {
      var d := db.(favorites := t);
      forall id | id in d.recipes ensures RecipeOk(d, d.recipes[id]) {
        assert RecipeOk(db, db.recipes[id]);
      }
      forall l | l in d.lines ensures LineOk(d, l) {
        assert LineOk(db, l);
      }
    }
  }

  lemma SetCartKeepsValid(db: Db, t: seq<Pair>)
    ensures Valid(db) && PairsOk(t, db.users.Keys, db.recipes.Keys) ==> Valid(db.(cart := t))
  {
    if Valid(db) {
      var d := db.(cart := t);
      forall id | id in d.recipes ensures RecipeOk(d, d.recipes[id]) {
        assert RecipeOk(db, db.recipes[id]);
      }
      forall l | l in d.lines ensures LineOk(d, l) {
        assert LineOk(db, l);
      }
    }
  }

  /** Removing rows and a row's referents consistently keeps the database valid:
      the cascades are exactly what the foreign keys need. */
  lemma DeleteRecipeKeepsValid(db: Db, r: RecipeId)
    requires Valid(db)
    ensures Valid(DeleteRecipe(db, r))
  {
    var d := DeleteRecipe(db, r);
    DeleteRecipeKeepsRecipesAndLines(db, r);
    DeleteRecipeKeepsMarkers(db, r, db.favorites, d.favorites);
    DeleteRecipeKeepsMarkers(db, r, db.cart, d.cart);
  }

  lemma DeleteRecipeKeepsRecipesAndLines(db: Db, r: RecipeId)
    requires forall id :: id in db.recipes ==> RecipeOk(db, db.recipes[id])
    requires forall l :: l in db.lines ==> LineOk(db, l)
    requires LineKeysUnique(db.lines)
    ensures var d := DeleteRecipe(db, r);
      && (forall id :: id in d.recipes ==> RecipeOk(d, d.recipes[id]))
      && (forall l :: l in d.lines ==> LineOk(d, l))
      && LineKeysUnique(d.lines)
  {
    var d := DeleteRecipe(db, r);
    forall id | id in d.recipes ensures RecipeOk(d, d.recipes[id]) {
      assert RecipeOk(db, db.recipes[id]);
    }
    forall l | l in d.lines ensures LineOk(d, l) {
      assert LineOk(db, l);
    }
  }

  /** Shared by the favorites and cart tables: `t` is what deleting recipe
      `r` leaves of `before`. */
  lemma DeleteRecipeKeepsMarkers(db: Db, r: RecipeId, before: seq<Pair>, t: seq<Pair>)
    requires PairsOk(before, db.users.Keys, db.recipes.Keys)
    requires NoDuplicates(before) ==> NoDuplicates(t)
    requires forall p :: p in t <==> p in before && p.target != r
    ensures var d := DeleteRecipe(db, r);
      PairsOk(t, d.users.Keys, d.recipes.Keys)
  {
    var d := DeleteRecipe(db, r);
    forall p | p in t ensures p.user in d.users && p.target in d.recipes {
      assert p in before;
    }
  }

  lemma DeleteUserKeepsValid(db: Db, u: UserId)
    requires Valid(db)
    ensures Valid(DeleteUser(db, u))
  {
    var d := DeleteUser(db, u);
    DeleteUserKeepsRecipesAndLines(db, u);
    DeleteUserKeepsPairs(db, u);
    assert UsersUnique(d.users);
  }

  lemma DeleteUserKeepsRecipesAndLines(db: Db, u: UserId)
    requires Valid(db)
    ensures var d := DeleteUser(db, u);
      && (forall id :: id in d.recipes ==> RecipeOk(d, d.recipes[id]))
      && (forall l :: l in d.lines ==> LineOk(d, l))
      && LineKeysUnique(d.lines)
  {
    var d := DeleteUser(db, u);
    forall id | id in d.recipes ensures RecipeOk(d, d.recipes[id]) {
      assert RecipeOk(db, db.recipes[id]);
    }
    forall l | l in d.lines ensures LineOk(d, l) {
      assert LineOk(db, l);
    }
  }

  lemma DeleteUserKeepsPairs(db: Db, u: UserId)
    requires Valid(db)
    ensures var d := DeleteUser(db, u);
      && PairsOk(d.follows, d.users.Keys, d.users.Keys)
      && NoSelfFollow(d.follows)
      && PairsOk(d.favorites, d.users.Keys, d.recipes.Keys)
      && PairsOk(d.cart, d.users.Keys, d.recipes.Keys)
  {
    DeleteUserKeepsFollows(db, u);
    DeleteUserKeepsMarkers(db, u, db.favorites, DeleteUser(db, u).favorites);
    DeleteUserKeepsMarkers(db, u, db.cart, DeleteUser(db, u).cart);
  }

  lemma DeleteUserKeepsFollows(db: Db, u: UserId)
    requires PairsOk(db.follows, db.users.Keys, db.users.Keys) && NoSelfFollow(db.follows)
    ensures var d := DeleteUser(db, u);
      PairsOk(d.follows, d.users.Keys, d.users.Keys) && NoSelfFollow(d.follows)
  {
    var d := DeleteUser(db, u);
    forall p | p in d.follows ensures p.user in d.users && p.target in d.users && p.user != p.target {
      assert p in db.follows;
    }
  }

  /** Shared by the favorites and cart tables: `t` is what deleting `u`
      leaves of `before`. */
  lemma DeleteUserKeepsMarkers(db: Db, u: UserId, before: seq<Pair>, t: seq<Pair>)
    requires PairsOk(before, db.users.Keys, db.recipes.Keys)
    requires NoDuplicates(before) ==> NoDuplicates(t)
    requires forall p :: p in t <==> p in before && p.user != u && p.target !in OwnedRecipes(db, u)
    ensures var d := DeleteUser(db, u);
      PairsOk(t, d.users.Keys, d.recipes.Keys)
  {
    var d := DeleteUser(db, u);
    forall p | p in t ensures p.user in d.users && p.target in d.recipes {
      assert p in before && p.target in db.recipes;
    }
  }

  lemma DeleteIngredientKeepsValid(db: Db, i: IngredientId)
    requires Valid(db)
    ensures Valid(DeleteIngredient(db, i))
  {
    var d := DeleteIngredient(db, i);
    assert forall id :: id in d.recipes ==> RecipeOk(d, d.recipes[id]) by {
      forall id | id in d.recipes ensures RecipeOk(d, d.recipes[id]) {
        assert RecipeOk(db, db.recipes[id]);
      }
    }
    assert forall l :: l in d.lines ==> LineOk(d, l) by {
      forall l | l in d.lines ensures LineOk(d, l) {
        assert LineOk(db, l);
      }
    }
    assert LineKeysUnique(d.lines);
  }
}

=== FILE: export.dfy ===
/** The download_shopping_cart endpoint: refuse an empty cart, otherwise
    render the shopping list as a plain-text attachment. Also how the list
    reacts to the cart endpoints. */
module Export {
  import opened Base
  import opened Seqs
  import opened Strings
  import opened Domain
  import opened Presence
  import opened Markers
  import opened ShoppingList

  const Title: string := "Список покупок:"
  const EmptyCartMessage: string := "Список покупок пуст."
  const FileName: string := "shopping_list.txt"
  const ContentType: string := "text/plain"
  const Disposition: string := "attachment; filename=" + FileName

  /** One line of the list: name, unit in parentheses, an em dash and the
      total in decimal. */
  function LineText(g: Group): string {
    g.name + " (" + g.unit + ") — " + IntToString(g.total)
  }

  function Body(gs: seq<Group>): string {
    if gs == [] then "" else LineText(gs[0]) + "\n" + Body(gs[1..])
  }

  /** The title, an empty line, then one newline-terminated line per group. */
  function Render(gs: seq<Group>): string {
    Title + "\n\n" + Body(gs)
  }

  function LinesText(gs: seq<Group>): (ls: seq<string>)
    ensures |ls| == |gs|
    ensures forall i :: 0 <= i < |gs| ==> ls[i] == LineText(gs[i])
  {
    if gs == [] then [] else [LineText(gs[0])] + LinesText(gs[1..])
  }

  predicate PlainLabels(gs: seq<Group>) {
    forall g :: g in gs ==> NoNewline(g.name) && NoNewline(g.unit)
  }

  /** The rendered text splits into the title, an empty line and exactly one
      line per group, in list order. */
  lemma {:induction false} RenderLines(gs: seq<Group>)
    requires PlainLabels(gs)
    ensures SplitLines(Render(gs)) == [Title, ""] + LinesText(gs)
  {
    assert NoNewline(Title);
    assert Render(gs) == Title + "\n" + ("" + "\n" + Body(gs));
    SplitLinesCons(Title, "" + "\n" + Body(gs));
    SplitLinesCons("", Body(gs));
    BodyLines(gs);
  }

  lemma {:induction false} BodyLines(gs: seq<Group>)
    requires PlainLabels(gs)
    ensures SplitLines(Body(gs)) == LinesText(gs)
    decreases |gs|
  {
    if gs != [] {
      var g := gs[0];
      assert NoNewline(LineText(g)) by {
        assert LineText(g) == g.name + (" (" + (g.unit + (") — " + IntToString(g.total))));
      }
      SplitLinesCons(LineText(g), Body(gs[1..]));
      BodyLines(gs[1..]);
    }
  }

  /** The characters after the last space of a line. */
  function LastWord(s: string): (w: string)
    ensures ' ' !in w
    ensures |w| <= |s| && w == s[|s| - |w|..]
    decreases |s|
  {
    if s == [] || s[|s| - 1] == ' ' then [] else LastWord(s[..|s| - 1]) + [s[|s| - 1]]
  }

  lemma {:induction false} LastWordAfterSpace(p: string, w: string)
    requires ' ' !in w
    ensures LastWord(p + " " + w) == w
    decreases |w|
  {
    var s := p + " " + w;
    if w == [] {
      assert s[|s| - 1] == ' ';
    } else {
      var c := w[|w| - 1];
      assert s[|s| - 1] == c && c in w;
      assert s[..|s| - 1] == p + " " + w[..|w| - 1];
      assert LastWord(s) == LastWord(s[..|s| - 1]) + [c];
      LastWordAfterSpace(p, w[..|w| - 1]);
      assert w == w[..|w| - 1] + [c];
    }
  }

  /** Every rendered line reads back its group's total. */
  lemma TotalReadsBack(g: Group)
    ensures LastWord(LineText(g)) == IntToString(g.total)
    ensures ParseInt(LastWord(LineText(g))) == g.total
  {
    assert LineText(g) == (g.name + " (" + g.unit + ") —") + " " + IntToString(g.total);
    LastWordAfterSpace(g.name + " (" + g.unit + ") —", IntToString(g.total));
    ParseIntToString(g.total);
  }

  /** The response of download_shopping_cart. */
  datatype Download =
    | Unauthenticated
    | EmptyCart(message: string)
    | Attachment(disposition: string, contentType: string, groups: seq<Group>, text: string)
  {
    function StatusOf(): Status {
      match this
      case Unauthenticated => Unauthorized401
      case EmptyCart(_) => BadRequest400
      case Attachment(_, _, _, _) => Ok200
    }
  }

  /** The user's cart holds no row exactly when no carted recipe is joined. */
  lemma CartEmptyIff(cart: seq<Pair>, user: UserId)
    ensures CartRecipes(cart, user) == [] <==> forall p :: p in cart ==> p.user != user
  {
    if CartRecipes(cart, user) == [] {
      forall p | p in cart ensures p.user != user {
        FlatMapMember(cart, CartRow(user), p.target);
      }
    } else {
      CartRecipeFromRow(cart, user, CartRecipes(cart, user)[0]);
    }
  }

  function DownloadShoppingCart(db: Db, requester: Requester): (r: Download)
    ensures r.Unauthenticated? <==> requester.Anonymous?
    ensures r.EmptyCart? <==> requester.Member? && forall p :: p in db.cart ==> p.user != requester.id
    ensures r.EmptyCart? ==> r.message == EmptyCartMessage && r.StatusOf() == BadRequest400
    ensures r.Attachment? ==> r.StatusOf() == Ok200 && r.disposition == Disposition && r.contentType == ContentType
    ensures r.Attachment? ==> requester.Member? && IsShoppingListOf(r.groups, Joined(db, requester.id))
    ensures r.Attachment? ==> r.text == Render(r.groups)
  {
    match requester
    case Anonymous => Unauthenticated
    case Member(u) =>
      CartEmptyIff(db.cart, u);
      if CartRecipes(db.cart, u) == [] then EmptyCart(EmptyCartMessage)
      else
        var gs := Aggregate(Joined(db, u));
        AggregateIsShoppingList(Joined(db, u));
        Attachment(Disposition, ContentType, gs, Render(gs))
  }

  /** Any two downloads of the same cart list the same lines, up to the
      order of lines whose ingredients share a name. */
  lemma DownloadDeterminedByCart(db: Db, cart: seq<Pair>, user: UserId)
    requires multiset(cart) == multiset(db.cart)
    ensures var a := DownloadShoppingCart(db, Member(user));
            var b := DownloadShoppingCart(db.(cart := cart), Member(user));
      && a.Attachment? == b.Attachment?
      && (a.Attachment? ==> (forall g :: g in a.groups <==> g in b.groups) && |a.groups| == |b.groups|)
  {
    var a := DownloadShoppingCart(db, Member(user));
    var b := DownloadShoppingCart(db.(cart := cart), Member(user));
    assert forall p :: p in cart <==> p in db.cart by {
      forall p ensures p in cart <==> p in db.cart {
        assert p in cart <==> p in multiset(cart);
      }
    }
    if a.Attachment? {
      CartOrderIrrelevant(db, cart, user);
      ShoppingListUnique(a.groups, b.groups, Joined(db, user));
    }
  }

  /** The joined rows after the cart gained row `p`, in whatever order. */
  lemma JoinedAfterAppend(db: Db, c: seq<Pair>, p: Pair, who: UserId, k: Key)
    requires multiset(c) == multiset(db.cart + [p])
    ensures SumFor(Joined(db.(cart := c), who), k) ==
            SumFor(Joined(db, who), k) + (if p.user == who then SumFor(RecipeEntries(db.lines, db.ingredients, p.target), k) else 0)
  {
    var f := EntriesOf(db.lines, db.ingredients);
    FlatMapPermutation(c, db.cart + [p], CartRow(who));
    FlatMapAppend(db.cart, [p], CartRow(who));
    FlatMapSingle(p, CartRow(who));
    var rs := CartRecipes(db.cart, who) + CartRow(who)(p);
    FlatMapPermutation(CartRecipes(c, who), rs, f);
    SumForPermutation(Joined(db.(cart := c), who), FlatMap(rs, f), k);
    FlatMapAppend(CartRecipes(db.cart, who), CartRow(who)(p), f);
    SumForAppend(Joined(db, who), FlatMap(CartRow(who)(p), f), k);
    if p.user == who {
      FlatMapSingle(p.target, f);
    }
  }

  /** Putting a recipe in the cart adds that recipe's amounts to the
      user's totals and changes nobody else's. */
  lemma AddToCartTotals(db: Db, user: UserId, recipe: RecipeId, who: UserId, k: Key)
    requires AddToCart(db, user, recipe).Ok?
    ensures SumFor(Joined(AddToCart(db, user, recipe).value, who), k) ==
            SumFor(Joined(db, who), k) + (if who == user then SumFor(RecipeEntries(db.lines, db.ingredients, recipe), k) else 0)
  {
    var d := AddToCart(db, user, recipe).value;
    assert multiset(d.cart) == multiset(db.cart + [Pair(user, recipe)]);
    assert d == db.(cart := d.cart);
    JoinedAfterAppend(db, d.cart, Pair(user, recipe), who, k);
  }

  /** Taking a recipe out of the cart subtracts exactly its amounts from
      the user's totals and changes nobody else's. */
  lemma RemoveFromCartTotals(db: Db, user: UserId, recipe: RecipeId, who: UserId, k: Key)
    requires NoDuplicates(db.cart)
    requires RemoveFromCart(db, user, recipe).Ok?
    ensures SumFor(Joined(RemoveFromCart(db, user, recipe).value, who), k) ==
            SumFor(Joined(db, who), k) - (if who == user then SumFor(RecipeEntries(db.lines, db.ingredients, recipe), k) else 0)
  {
    var d := RemoveFromCart(db, user, recipe).value;
    var p := Pair(user, recipe);
    assert d.cart == Remove(db.cart, p);
    RemoveCounts(db.cart, p);
    assert multiset(db.cart) == multiset(d.cart + [p]);
    assert db == d.(cart := db.cart);
    JoinedAfterAppend(d, db.cart, p, who, k);
  }
}

=== FILE: markers.dfy ===
/** The presence-marker endpoints: putting a recipe in the shopping cart or
    among the favorites, following an author, and undoing each. A refused
    request changes nothing; a successful one changes exactly one row of one
    table. */
module Markers {
  import opened Base
  import opened Seqs
  import opened Domain
  import opened Validation
  import opened Presence

  /** POST on a recipe's shopping_cart: serializer validation, then the
      generic create step on the cart table. */
  function AddToCart(db: Db, user: UserId, recipe: RecipeId): (r: Outcome<Db>)
    ensures r.Fail? <==> Has(db.cart, user, recipe) || recipe !in db.recipes
    ensures r.Fail? && Has(db.cart, user, recipe) ==> r.status == BadRequest400
    ensures r.Fail? && !Has(db.cart, user, recipe) ==> r.status == NotFound404
    ensures r.Ok? ==> r.status == Created201 && r.value == db.(cart := r.value.cart)
    ensures r.Ok? ==> multiset(r.value.cart) == multiset(db.cart) + multiset{Pair(user, recipe)}
    ensures r.Ok? && Valid(db) && user in db.users ==> Valid(r.value)
  {
    match ValidateCartItem(db.cart, user, recipe)
    case Refuse(_) => Fail(BadRequest400)
    case Pass(_) =>
      match PerformCreate(db.cart, user, recipe, db.recipes.Keys)
      case Fail(s) => Fail(s)
      case Ok(s, t) =>
        SetCartKeepsValid(db, t);
        Ok(s, db.(cart := t))
  }

  /** DELETE on a recipe's shopping_cart: the generic destroy step. */
  function RemoveFromCart(db: Db, user: UserId, recipe: RecipeId): (r: Outcome<Db>)
    ensures r.Fail? <==> !Has(db.cart, user, recipe)
    ensures r.Fail? ==> r.status == BadRequest400
    ensures r.Ok? ==> r.status == NoContent204 && r.value == db.(cart := r.value.cart)
    ensures r.Ok? ==> forall p :: p in r.value.cart <==> p in db.cart && p != Pair(user, recipe)
    ensures r.Ok? && NoDuplicates(db.cart) ==> |r.value.cart| == |db.cart| - 1
    ensures r.Ok? && Valid(db) ==> Valid(r.value)
  {
    match Destroy(db.cart, user, recipe)
    case Fail(s) => Fail(s)
    case Ok(s, t) =>
      SetCartKeepsValid(db, t);
      Ok(s, db.(cart := t))
  }

  /** POST on a recipe's favorite, as the code stands: validation passes and
      the recipe exists, but the generic create step saves the row with a
      `recipe` keyword while the favorite row's field is `favorite_recipe`,
      so the save raises and the answer is a server error. */
  function AddFavoriteAsWritten(db: Db, user: UserId, recipe: RecipeId): (r: Outcome<Db>)
    ensures r.Fail?
    ensures r.status == BadRequest400 <==> Has(db.favorites, user, recipe)
    ensures r.status == NotFound404 <==> !Has(db.favorites, user, recipe) && recipe !in db.recipes
    ensures r.status == ServerError500 <==> !Has(db.favorites, user, recipe) && recipe in db.recipes
  {
    match ValidateFavorite(db.favorites, user, recipe)
    case Refuse(_) => Fail(BadRequest400)
    case Pass(_) => if recipe !in db.recipes then Fail(NotFound404) else Fail(ServerError500)
  }

  /** DELETE on a recipe's favorite, as the code stands: the generic destroy
      step filters the favorite table on a `recipe_id` field it does not
      have, which raises before anything is read. */
  function RemoveFavoriteAsWritten(db: Db, user: UserId, recipe: RecipeId): (r: Outcome<Db>)
    ensures r == Fail(ServerError500)
  {
    Fail(ServerError500)
  }

  /** POST on a recipe's favorite with the generic step applied to the
      favorite table's own field: the behaviour the cart endpoint has. */
  function AddFavorite(db: Db, user: UserId, recipe: RecipeId): (r: Outcome<Db>)
    ensures r.Fail? <==> Has(db.favorites, user, recipe) || recipe !in db.recipes
    ensures r.Fail? && Has(db.favorites, user, recipe) ==> r.status == BadRequest400
    ensures r.Fail? && !Has(db.favorites, user, recipe) ==> r.status == NotFound404
    ensures r.Ok? ==> r.status == Created201 && r.value == db.(favorites := r.value.favorites)
    ensures r.Ok? ==> multiset(r.value.favorites) == multiset(db.favorites) + multiset{Pair(user, recipe)}
    ensures r.Ok? && Valid(db) && user in db.users ==> Valid(r.value)
  {
    match ValidateFavorite(db.favorites, user, recipe)
    case Refuse(_) => Fail(BadRequest400)
    case Pass(_) =>
      match PerformCreate(db.favorites, user, recipe, db.recipes.Keys)
      case Fail(s) => Fail(s)
      case Ok(s, t) =>
        SetFavoritesKeepsValid(db, t);
        Ok(s, db.(favorites := t))
  }

  /** DELETE on a recipe's favorite with the generic step applied to the
      favorite table's own field. */
  function RemoveFavorite(db: Db, user: UserId, recipe: RecipeId): (r: Outcome<Db>)
    ensures r.Fail? <==> !Has(db.favorites, user, recipe)
    ensures r.Fail? ==> r.status == BadRequest400
    ensures r.Ok? ==> r.status == NoContent204 && r.value == db.(favorites := r.value.favorites)
    ensures r.Ok? ==> forall p :: p in r.value.favorites <==> p in db.favorites && p != Pair(user, recipe)
    ensures r.Ok? && NoDuplicates(db.favorites) ==> |r.value.favorites| == |db.favorites| - 1
    ensures r.Ok? && Valid(db) ==> Valid(r.value)
  {
    match Destroy(db.favorites, user, recipe)
    case Fail(s) => Fail(s)
    case Ok(s, t) =>
      SetFavoritesKeepsValid(db, t);
      Ok(s, db.(favorites := t))
  }

  /** POST on a user's subscribe: validation (self-follow, second follow),
      then 404 when the author does not exist, else a row whose follower is
      the acting user. */
  function Follow(db: Db, user: UserId, author: UserId): (r: Outcome<Db>)
    ensures r.Fail? <==> user == author || Has(db.follows, user, author) || author !in db.users
    ensures r.Fail? && (user == author || Has(db.follows, user, author)) ==> r.status == BadRequest400
    ensures r.Fail? && user != author && !Has(db.follows, user, author) ==> r.status == NotFound404
    ensures r.Ok? ==> r.status == Created201 && r.value == db.(follows := r.value.follows)
    ensures r.Ok? ==> multiset(r.value.follows) == multiset(db.follows) + multiset{Pair(user, author)}
    ensures r.Ok? && Valid(db) && user in db.users ==> Valid(r.value)
  {
    match ValidateFollow(db.follows, user, author)
    case Refuse(_) => Fail(BadRequest400)
    case Pass(_) =>
      match PerformCreate(db.follows, user, author, db.users.Keys)
      case Fail(s) => Fail(s)
      case Ok(s, t) =>
        SetFollowsKeepsValid(db, t);
        Ok(s, db.(follows := t))
  }

  /** POST on a user's subscribe as the code stands when the URL value is
      text: a self-follow passes validation and is stored. */
  function FollowAsWritten(db: Db, user: UserId, author: UserId): (r: Outcome<Db>)
    ensures r.Fail? <==> Has(db.follows, user, author) || author !in db.users
    ensures r.Fail? && Has(db.follows, user, author) ==> r.status == BadRequest400
    ensures r.Fail? && !Has(db.follows, user, author) ==> r.status == NotFound404
    ensures r.Ok? ==> r.status == Created201 && r.value == db.(follows := r.value.follows)
    ensures r.Ok? ==> multiset(r.value.follows) == multiset(db.follows) + multiset{Pair(user, author)}
  {
    match ValidateFollowAsWritten(db.follows, user, author)
    case Refuse(_) => Fail(BadRequest400)
    case Pass(_) =>
      match PerformCreate(db.follows, user, author, db.users.Keys)
      case Fail(s) => Fail(s)
      case Ok(s, t) => Ok(s, db.(follows := t))
  }

  /** The counterexample for the self-follow check: as written any existing
      user can follow themselves, which breaks `NoSelfFollow`; the corrected
      endpoint refuses with 400 and leaves the database alone. */
  lemma SelfFollowStoredAsWritten(db: Db, u: UserId)
    requires u in db.users && !Has(db.follows, u, u)
    ensures FollowAsWritten(db, u, u).Ok?
    ensures Pair(u, u) in FollowAsWritten(db, u, u).value.follows
    ensures !NoSelfFollow(FollowAsWritten(db, u, u).value.follows)
    ensures Follow(db, u, u) == Fail(BadRequest400)
  {
    var t := FollowAsWritten(db, u, u).value.follows;
    assert multiset(t)[Pair(u, u)] > 0;
  }

  /** DELETE on a user's subscribe: 404 for an unknown author, 400 when not
      following, else exactly that follow row goes and the answer is 204. */
  function Unfollow(db: Db, user: UserId, author: UserId): (r: Outcome<Db>)
    ensures r.Fail? <==> author !in db.users || !Has(db.follows, user, author)
    ensures r.Fail? && author !in db.users ==> r.status == NotFound404
    ensures r.Fail? && author in db.users ==> r.status == BadRequest400
    ensures r.Ok? ==> r.status == NoContent204 && r.value == db.(follows := r.value.follows)
    ensures r.Ok? ==> forall p :: p in r.value.follows <==> p in db.follows && p != Pair(user, author)
    ensures r.Ok? && NoDuplicates(db.follows) ==> |r.value.follows| == |db.follows| - 1
    ensures r.Ok? && Valid(db) ==> Valid(r.value)
  {
    if author !in db.users then Fail(NotFound404)
    else
      match Destroy(db.follows, user, author)
      case Fail(s) => Fail(s)
      case Ok(s, t) =>
        SetFollowsKeepsValid(db, t);
        Ok(s, db.(follows := t))
  }

  /** The favorite endpoints as written never succeed, where the corrected
      ones do: the counterexample for the field-name mismatch. */
  lemma FavoritesNeverStoredAsWritten(db: Db, user: UserId, recipe: RecipeId)
    requires recipe in db.recipes && !Has(db.favorites, user, recipe)
    ensures AddFavoriteAsWritten(db, user, recipe) == Fail(ServerError500)
    ensures AddFavorite(db, user, recipe).Ok?
    ensures AddFavorite(db, user, recipe).value.favorites == db.favorites + [Pair(user, recipe)]
    ensures RemoveFavoriteAsWritten(AddFavorite(db, user, recipe).value, user, recipe) == Fail(ServerError500)
    ensures RemoveFavorite(AddFavorite(db, user, recipe).value, user, recipe).Ok?
  {
  }
}

=== FILE: permissions.dfy ===
/** The two object-level permission checks applied to recipes. */
module Permissions {
  import opened Domain

  datatype Method = Get | Head | Options | Post | Put | Patch | Delete

  /** The methods that only read: GET, HEAD and OPTIONS. */
  predicate IsSafe(m: Method) {
    m == Get || m == Head || m == Options
  }

  /** IsOwnerOrReadOnly: reads are open to everyone, writes only to the author. */
  predicate OwnerOrReadOnly(m: Method, requester: Requester, author: UserId) {
    if IsSafe(m) then true else requester == Member(author)
  }

  /** IsOwner: allowed only when the method reads AND the requester is the author. */
  predicate OwnerOnly(m: Method, requester: Requester, author: UserId) {
    if IsSafe(m) && requester == Member(author) then true else false
  }

  lemma SafeMethodsAlwaysAllowed(m: Method, requester: Requester, author: UserId)
    requires IsSafe(m)
    ensures OwnerOrReadOnly(m, requester, author)
  {
  }

  /** A write passes IsOwnerOrReadOnly exactly when the requester is the author;
      in particular an anonymous request never writes. */
  lemma WriteAllowedIffAuthor(m: Method, requester: Requester, author: UserId)
    requires !IsSafe(m)
    ensures OwnerOrReadOnly(m, requester, author) <==> requester.Member? && requester.id == author
    ensures !OwnerOrReadOnly(m, Anonymous, author)
  {
  }

  /** IsOwner never lets a write through. */
  lemma OwnerOnlyDeniesWrites(m: Method, requester: Requester, author: UserId)
    requires !IsSafe(m)
    ensures !OwnerOnly(m, requester, author)
  {
  }

  /** IsOwner is the stricter check. */
  lemma OwnerOnlyImpliesOwnerOrReadOnly(m: Method, requester: Requester, author: UserId)
    ensures OwnerOnly(m, requester, author) ==> OwnerOrReadOnly(m, requester, author)
  {
  }
}

=== FILE: presence.dfy ===
/** The generic create and destroy steps shared by the presence-marker
    endpoints: a table of (user, target) rows in which the acting user
    adds or removes exactly one row. */
module Presence {
  import opened Base
  import opened Seqs
  import opened Domain

  predicate Has(t: seq<Pair>, user: UserId, target: nat) {
    Pair(user, target) in t
  }

  /** Every row except `p`, in order. */
  function Remove(t: seq<Pair>, p: Pair): (r: seq<Pair>)
    ensures p !in r
    ensures forall q :: q in r <==> q in t && q != p
    ensures NoDuplicates(t) ==> NoDuplicates(r)
  {
    var keep := (q: Pair) => q != p;
    FilterNoDuplicates(t, keep);
    Filter(t, keep)
  }

  /** In a duplicate-free table, removing a present row shortens it by exactly one. */
  lemma RemoveOne(t: seq<Pair>, p: Pair)
    ensures NoDuplicates(t) && p in t ==> |Remove(t, p)| == |t| - 1
  {
    if NoDuplicates(t) && p in t {
      RemoveCounts(t, p);
    }
  }

  lemma RemoveCounts(t: seq<Pair>, p: Pair)
    requires NoDuplicates(t) && p in t
    ensures multiset(t) == multiset(Remove(t, p)) + multiset{p}
  {
    var r := Remove(t, p);
    forall x
      ensures multiset(t)[x] == (multiset(r) + multiset{p})[x]
    {
      FilterCount(t, (q: Pair) => q != p, x);
    }
  }

  /** BaseClassViewSets.perform_create: store a row pairing the acting user
      with the target named in the URL, or answer 404 when that target does
      not exist. */
  function PerformCreate(t: seq<Pair>, user: UserId, target: nat, targets: set<nat>): (r: Outcome<seq<Pair>>)
    ensures r.Fail? <==> target !in targets
    ensures r.Fail? ==> r.status == NotFound404
    ensures r.Ok? ==> r.status == Created201 && Has(r.value, user, target)
    ensures r.Ok? ==> multiset(r.value) == multiset(t) + multiset{Pair(user, target)}
    ensures r.Ok? ==> forall q :: q in r.value <==> q in t || q == Pair(user, target)
    ensures r.Ok? && NoDuplicates(t) && !Has(t, user, target) ==> NoDuplicates(r.value)
  {
    if target !in targets then Fail(NotFound404)
    else
      var p := Pair(user, target);
      AppendNoDuplicates(t, p);
      Ok(Created201, t + [p])
  }

  /** BaseClassViewSets.destroy: 400 and no change when the acting user has
      no row for the target; otherwise that one row goes and the answer is 204. */
  function Destroy(t: seq<Pair>, user: UserId, target: nat): (r: Outcome<seq<Pair>>)
    ensures r.Fail? <==> !Has(t, user, target)
    ensures r.Fail? ==> r.status == BadRequest400
    ensures r.Ok? ==> r.status == NoContent204 && !Has(r.value, user, target)
    ensures r.Ok? ==> forall q :: q != Pair(user, target) ==> (q in r.value <==> q in t)
    ensures r.Ok? && NoDuplicates(t) ==> NoDuplicates(r.value) && |r.value| == |t| - 1
  {
    if !Has(t, user, target) then Fail(BadRequest400)
    else
      var p := Pair(user, target);
      RemoveOne(t, p);
      Ok(NoContent204, Remove(t, p))
  }
}

=== FILE: readfields.dfy ===
/** The per-requester fields a read carries: whether the requester has
    favorited a recipe or put it in the cart, whether they follow a user,
    and how many recipes an author has. Each is a lookup in the current
    tables, so each follows the marker endpoints exactly. */
module ReadFields {
  import opened Seqs
  import opened Domain
  import opened Presence
  import opened Markers
  import opened RecipeWrite

  /** is_favorited: false for anonymous requests, otherwise whether the
      requester's favorite row for the recipe exists. */
  function IsFavorited(db: Db, requester: Requester, recipe: RecipeId): (b: bool)
    ensures requester.Anonymous? ==> !b
  {
    match requester
    case Anonymous => false
    case Member(u) => Has(db.favorites, u, recipe)
  }

  /** is_in_shopping_cart: false for anonymous requests, otherwise whether
      the requester's cart row for the recipe exists. */
  function IsInShoppingCart(db: Db, requester: Requester, recipe: RecipeId): (b: bool)
    ensures requester.Anonymous? ==> !b
  {
    match requester
    case Anonymous => false
    case Member(u) => Has(db.cart, u, recipe)
  }

  /** What is_subscribed is computed on: a user, or a follow row whose
      author is looked at. */
  datatype Subject = UserSubject(id: UserId) | FollowSubject(row: Pair)

  function SubjectUser(s: Subject): UserId {
    match s
    case UserSubject(id) => id
    case FollowSubject(row) => row.target
  }

  /** is_subscribed: whether the requester follows the subject's user. An
      anonymous requester has no id and no follow row matches it. */
  function IsSubscribed(db: Db, requester: Requester, s: Subject): (b: bool)
    ensures requester.Anonymous? ==> !b
  {
    match requester
    case Anonymous => false
    case Member(u) => Has(db.follows, u, SubjectUser(s))
  }

  /** recipes_count: the number of recipes whose author is `author`. */
  function RecipesCount(db: Db, author: UserId): (n: nat)
    ensures n == |OwnedRecipes(db, author)|
    ensures n <= |db.recipes|
  {
    var owned := OwnedRecipes(db, author);
    assert owned <= db.recipes.Keys;
    SubsetCard(owned, db.recipes.Keys);
    |owned|
  }

  lemma SubsetCard<T>(a: set<T>, b: set<T>)
    requires a <= b
    ensures |a| <= |b|
  {
    if a != {} {
      var x :| x in a;
      SubsetCard(a - {x}, b - {x});
    }
  }

  /** GET on users/subscriptions: the requester's follow rows. The source
      lists them newest first; creation timestamps are not modelled, so the
      order of the listing is left open. */
  function Subscriptions(db: Db, user: UserId): (rows: seq<Pair>)
    ensures forall row :: row in rows <==> row in db.follows && row.user == user
  {
    Filter(db.follows, (row: Pair) => row.user == user)
  }

  /** Every row of the subscriptions listing reads as subscribed for its
      requester, and the requester is subscribed to an author exactly when
      the listing has a row for that author. */
  lemma SubscriptionsReadSubscribed(db: Db, user: UserId, author: UserId)
    ensures forall row :: row in Subscriptions(db, user) ==> IsSubscribed(db, Member(user), FollowSubject(row))
    ensures IsSubscribed(db, Member(user), UserSubject(author)) <==>
      exists row :: row in Subscriptions(db, user) && row.target == author
  {
    if IsSubscribed(db, Member(user), UserSubject(author)) {
      assert Pair(user, author) in Subscriptions(db, user);
    }
  }

  /** After a successful favorite the recipe reads as favorited for that
      user, and every other (user, recipe) answer is as before. */
  lemma FavoritedAfterAdd(db: Db, user: UserId, recipe: RecipeId, who: Requester, other: RecipeId)
    requires AddFavorite(db, user, recipe).Ok?
    ensures IsFavorited(AddFavorite(db, user, recipe).value, Member(user), recipe)
    ensures who != Member(user) || other != recipe ==>
      IsFavorited(AddFavorite(db, user, recipe).value, who, other) == IsFavorited(db, who, other)
  {
    var d := AddFavorite(db, user, recipe).value;
    assert Pair(user, recipe) in multiset(d.favorites);
    if who.Member? && (who.id != user || other != recipe) {
      var q := Pair(who.id, other);
      assert multiset(d.favorites)[q] == multiset(db.favorites)[q];
    }
  }

  /** After a successful removal the recipe no longer reads as favorited for
      that user, and every other answer is as before. */
  lemma NotFavoritedAfterRemove(db: Db, user: UserId, recipe: RecipeId, who: Requester, other: RecipeId)
    requires RemoveFavorite(db, user, recipe).Ok?
    ensures !IsFavorited(RemoveFavorite(db, user, recipe).value, Member(user), recipe)
    ensures who != Member(user) || other != recipe ==>
      IsFavorited(RemoveFavorite(db, user, recipe).value, who, other) == IsFavorited(db, who, other)
  {
  }

  lemma InCartAfterAdd(db: Db, user: UserId, recipe: RecipeId, who: Requester, other: RecipeId)
    requires AddToCart(db, user, recipe).Ok?
    ensures IsInShoppingCart(AddToCart(db, user, recipe).value, Member(user), recipe)
    ensures who != Member(user) || other != recipe ==>
      IsInShoppingCart(AddToCart(db, user, recipe).value, who, other) == IsInShoppingCart(db, who, other)
  {
    var d := AddToCart(db, user, recipe).value;
    assert Pair(user, recipe) in multiset(d.cart);
    if who.Member? && (who.id != user || other != recipe) {
      var q := Pair(who.id, other);
      assert multiset(d.cart)[q] == multiset(db.cart)[q];
    }
  }

  lemma NotInCartAfterRemove(db: Db, user: UserId, recipe: RecipeId, who: Requester, other: RecipeId)
    requires RemoveFromCart(db, user, recipe).Ok?
    ensures !IsInShoppingCart(RemoveFromCart(db, user, recipe).value, Member(user), recipe)
    ensures who != Member(user) || other != recipe ==>
      IsInShoppingCart(RemoveFromCart(db, user, recipe).value, who, other) == IsInShoppingCart(db, who, other)
  {
  }

  lemma SubscribedAfterFollow(db: Db, user: UserId, author: UserId, who: Requester, s: Subject)
    requires Follow(db, user, author).Ok?
    ensures IsSubscribed(Follow(db, user, author).value, Member(user), UserSubject(author))
    ensures who != Member(user) || SubjectUser(s) != author ==>
      IsSubscribed(Follow(db, user, author).value, who, s) == IsSubscribed(db, who, s)
  {
    var d := Follow(db, user, author).value;
    assert Pair(user, author) in multiset(d.follows);
    if who.Member? && (who.id != user || SubjectUser(s) != author) {
      var q := Pair(who.id, SubjectUser(s));
      assert multiset(d.follows)[q] == multiset(db.follows)[q];
    }
  }

  lemma NotSubscribedAfterUnfollow(db: Db, user: UserId, author: UserId, who: Requester, s: Subject)
    requires Unfollow(db, user, author).Ok?
    ensures !IsSubscribed(Unfollow(db, user, author).value, Member(user), UserSubject(author))
    ensures who != Member(user) || SubjectUser(s) != author ==>
      IsSubscribed(Unfollow(db, user, author).value, who, s) == IsSubscribed(db, who, s)
  {
  }

  /** Storing a recipe under a fresh id adds it to its author's recipes. */
  lemma OwnedAfterInsert(db: Db, d: Db, id: RecipeId, rec: Recipe, author: UserId)
    requires id !in db.recipes && d.recipes == db.recipes[id := rec]
    ensures RecipesCount(d, author) == RecipesCount(db, author) + (if rec.author == author then 1 else 0)
  {
    var before := OwnedRecipes(db, author);
    var after := OwnedRecipes(d, author);
    var added := if rec.author == author then {id} else {};
    forall r ensures r in after <==> r in before + added {
      if r != id {
        assert r in d.recipes <==> r in db.recipes;
      }
    }
    assert after == before + added;
    assert before !! added;
  }

  /** Same recipe ids with the same authors give the same counts. */
  lemma OwnedSameAuthors(db: Db, d: Db, author: UserId)
    requires d.recipes.Keys == db.recipes.Keys
    requires forall r :: r in d.recipes ==> d.recipes[r].author == db.recipes[r].author
    ensures RecipesCount(d, author) == RecipesCount(db, author)
  {
    assert OwnedRecipes(d, author) == OwnedRecipes(db, author);
  }

  /** Creating a recipe adds one to its author's count and leaves every
      other author's count alone. */
  lemma RecipesCountAfterCreate(db: Db, actor: Requester, input: RecipeInput, id: RecipeId, author: UserId)
    requires id !in db.recipes
    requires CreateRecipe(db, actor, input, id).Ok?
    ensures var d := CreateRecipe(db, actor, input, id).value;
      RecipesCount(d, author) == RecipesCount(db, author) + (if actor == Member(author) then 1 else 0)
  {
    var d := CreateRecipe(db, actor, input, id).value;
    OwnedAfterInsert(db, d, id, d.recipes[id], author);
  }

  /** Deleting a recipe takes one from its author's count only. */
  lemma RecipesCountAfterDestroy(db: Db, actor: Requester, id: RecipeId, author: UserId)
    requires DestroyRecipe(db, actor, id).Ok?
    ensures var d := DestroyRecipe(db, actor, id).value;
      RecipesCount(d, author) == RecipesCount(db, author) - (if actor == Member(author) then 1 else 0)
  {
    var d := DestroyRecipe(db, actor, id).value;
    assert db.recipes == d.recipes[id := db.recipes[id]];
    OwnedAfterInsert(d, db, id, db.recipes[id], author);
  }

  /** Updating a recipe never changes any author's count. */
  lemma RecipesCountAfterUpdate(db: Db, actor: Requester, id: RecipeId, patch: RecipePatch, author: UserId)
    requires UpdateRecipe(db, actor, id, patch).Ok?
    ensures RecipesCount(UpdateRecipe(db, actor, id, patch).value, author) == RecipesCount(db, author)
  {
    var d := UpdateRecipe(db, actor, id, patch).value;
    assert d.recipes.Keys == db.recipes.Keys;
    OwnedSameAuthors(db, d, author);
  }

  /** Once a user is deleted nothing is authored by them, favorited or
      carted by them, or followed by or of them. */
  lemma NothingLeftAfterDeleteUser(db: Db, u: UserId, recipe: RecipeId, s: Subject, other: UserId)
    ensures var d := DeleteUser(db, u);
      && RecipesCount(d, u) == 0
      && !IsFavorited(d, Member(u), recipe)
      && !IsInShoppingCart(d, Member(u), recipe)
      && !IsSubscribed(d, Member(u), s)
      && !IsSubscribed(d, Member(other), UserSubject(u))
  {
    var d := DeleteUser(db, u);
    assert OwnedRecipes(d, u) == {};
  }
}

=== FILE: recipes.dfy ===
/** Creating, updating and deleting recipes. Creation stores the recipe with
    the acting user as author, sets its tags and stores one ingredient line
    per submitted ingredient; an update that carries ingredients discards
    the recipe's lines and stores the submitted ones instead. */
module RecipeWrite {
  import opened Base
  import opened Seqs
  import opened Domain
  import opened Permissions
  import Validation

  /** One submitted ingredient: an ingredient id and an amount. */
  datatype IngredientInput = IngredientInput(id: IngredientId, amount: int)

  datatype RecipeInput = RecipeInput(
    name: string,
    text: string,
    cookingTime: int,
    tags: seq<TagId>,
    ingredients: seq<IngredientInput>)

  /** An update: absent fields keep their stored value. A full update (PUT,
      `partial` false) must carry every required field; a partial one
      (PATCH) may omit any. The cooking time has a model default and is
      never required. */
  datatype RecipePatch = RecipePatch(
    partial: bool,
    name: Option<string>,
    text: Option<string>,
    cookingTime: Option<int>,
    tags: Option<seq<TagId>>,
    ingredients: Option<seq<IngredientInput>>)

  /** The lines that storing `inputs` for `recipe` adds, in submission order. */
  function LinesFor(recipe: RecipeId, inputs: seq<IngredientInput>): (ls: seq<Line>)
    ensures |ls| == |inputs|
    ensures forall k :: 0 <= k < |inputs| ==> ls[k] == Line(recipe, inputs[k].id, inputs[k].amount)
  {
    if inputs == [] then [] else [Line(recipe, inputs[0].id, inputs[0].amount)] + LinesFor(recipe, inputs[1..])
  }

  predicate HasLine(lines: seq<Line>, recipe: RecipeId, ingredient: IngredientId) {
    exists l :: l in lines && l.recipe == recipe && l.ingredient == ingredient
  }

  /** What the database accepts when the lines are inserted one by one: every
      ingredient exists, every amount fits the column, and no (recipe,
      ingredient) pair is inserted twice or was already present. */
  predicate Storable(lines: seq<Line>, known: set<IngredientId>, recipe: RecipeId, inputs: seq<IngredientInput>) {
    && (forall k :: 0 <= k < |inputs| ==>
          inputs[k].id in known && 0 <= inputs[k].amount <= MaxSmallAmount && !HasLine(lines, recipe, inputs[k].id))
    && (forall j, k :: 0 <= j < k < |inputs| ==> inputs[j].id != inputs[k].id)
  }

  lemma HasLineAppend(lines: seq<Line>, l: Line, recipe: RecipeId, ingredient: IngredientId)
    ensures HasLine(lines + [l], recipe, ingredient) <==>
            HasLine(lines, recipe, ingredient) || (l.recipe == recipe && l.ingredient == ingredient)
  {
    if HasLine(lines + [l], recipe, ingredient) {
      var m :| m in lines + [l] && m.recipe == recipe && m.ingredient == ingredient;
      if m != l {
        assert m in lines;
      }
    }
  }

  /** Storing the first input and then the rest is storing them all. */
  lemma StorableStep(lines: seq<Line>, known: set<IngredientId>, recipe: RecipeId, inputs: seq<IngredientInput>)
    requires |inputs| > 0
    ensures var i := inputs[0];
      Storable(lines, known, recipe, inputs) <==>
        && i.id in known && 0 <= i.amount <= MaxSmallAmount && !HasLine(lines, recipe, i.id)
        && Storable(lines + [Line(recipe, i.id, i.amount)], known, recipe, inputs[1..])
  {
    var i := inputs[0];
    var l := Line(recipe, i.id, i.amount);
    forall k | 0 <= k < |inputs| - 1
      ensures HasLine(lines + [l], recipe, inputs[1..][k].id) <==>
              HasLine(lines, recipe, inputs[k + 1].id) || i.id == inputs[k + 1].id
    {
      HasLineAppend(lines, l, recipe, inputs[k + 1].id);
    }
    if Storable(lines + [l], known, recipe, inputs[1..]) && i.id in known && 0 <= i.amount <= MaxSmallAmount && !HasLine(lines, recipe, i.id) {
      forall j, k | 0 <= j < k < |inputs|
        ensures inputs[j].id != inputs[k].id
      {
        if j > 0 {
          assert inputs[1..][j - 1] == inputs[j] && inputs[1..][k - 1] == inputs[k];
        } else {
          assert !HasLine(lines + [l], recipe, inputs[1..][k - 1].id);
        }
      }
    }
  }

  /** create_ingredients: insert one line per input, in order. `None` is the
      database error (unknown ingredient, amount outside the column's range,
      duplicate pair) that ends the request with a server error. */
  function CreateIngredients(lines: seq<Line>, known: set<IngredientId>, recipe: RecipeId, inputs: seq<IngredientInput>): (r: Option<seq<Line>>)
    ensures r.Some? <==> Storable(lines, known, recipe, inputs)
    ensures r.Some? ==> r.value == lines + LinesFor(recipe, inputs)
    decreases |inputs|
  {
    if inputs == [] then Some(lines)
    else
      var i := inputs[0];
      StorableStep(lines, known, recipe, inputs);
      if i.id !in known then None
      else if !(0 <= i.amount <= MaxSmallAmount) then None
      else if HasLine(lines, recipe, i.id) then None
      else
        var l := Line(recipe, i.id, i.amount);
        assert lines + LinesFor(recipe, inputs) == lines + [l] + LinesFor(recipe, inputs[1..]);
        CreateIngredients(lines + [l], known, recipe, inputs[1..])
  }

  function TagSet(tags: seq<TagId>): set<TagId> {
    set t | t in tags
  }

  /** `max_length` of the recipe name column. */
  const MaxRecipeNameLength := 200

  /** The name and the text are required and may not be blank; the name
      fits its column. */
  predicate NameOk(name: string) {
    Validation.TextFieldOk(name, MaxRecipeNameLength)
  }

  predicate TextOk(text: string) {
    |text| > 0
  }

  /** The field checks the recipe serializer performs: a non-blank name and
      text, the model's minimum cooking time and existing tag ids.
      Ingredient amounts are NOT checked: the ingredient input serializer
      declares `amount` as a bare integer. */
  predicate FieldsValid(db: Db, input: RecipeInput) {
    && NameOk(input.name) && TextOk(input.text)
    && input.cookingTime >= MinCookingTime && forall t :: t in input.tags ==> t in db.tags
  }

  /** The minimum-amount check the IngredientsAmount model declares. */
  predicate AmountsValid(inputs: seq<IngredientInput>) {
    forall k :: 0 <= k < |inputs| ==> inputs[k].amount >= MinAmount
  }

  /** Store a validated recipe under `id`, authored by `author`. */
  function StoreRecipe(db: Db, author: UserId, input: RecipeInput, id: RecipeId): (r: Outcome<Db>)
    ensures r.Fail? <==> !Storable(db.lines, db.ingredients.Keys, id, input.ingredients)
    ensures r.Fail? ==> r.status == ServerError500
    ensures r.Ok? ==> r.status == Created201 && r.value == db.(recipes := r.value.recipes, lines := r.value.lines)
    ensures r.Ok? ==> r.value.recipes == db.recipes[id := Recipe(author, input.name, input.text, input.cookingTime, TagSet(input.tags))]
    ensures r.Ok? ==> r.value.lines == db.lines + LinesFor(id, input.ingredients)
  {
    match CreateIngredients(db.lines, db.ingredients.Keys, id, input.ingredients)
    case None => Fail(ServerError500)
    case Some(lines) =>
      var recipe := Recipe(author, input.name, input.text, input.cookingTime, TagSet(input.tags));
      Ok(Created201, db.(recipes := db.recipes[id := recipe], lines := lines))
  }

  /** POST on recipes, as the code stands. `id` is the fresh key the
      database assigns. */
  function CreateRecipeAsWritten(db: Db, actor: Requester, input: RecipeInput, id: RecipeId): (r: Outcome<Db>)
    requires id !in db.recipes
    ensures r.Fail? <==> actor.Anonymous? || !FieldsValid(db, input)
                         || !Storable(db.lines, db.ingredients.Keys, id, input.ingredients)
    ensures r.Fail? && actor.Anonymous? ==> r.status == Unauthorized401
    ensures r.Fail? && actor.Member? && !FieldsValid(db, input) ==> r.status == BadRequest400
    ensures r.Fail? && actor.Member? && FieldsValid(db, input) ==> r.status == ServerError500
    ensures r.Ok? ==> r.status == Created201 && actor.Member?
    ensures r.Ok? ==> r.value == db.(recipes := r.value.recipes, lines := r.value.lines)
    ensures r.Ok? ==> r.value.recipes == db.recipes[id := Recipe(actor.id, input.name, input.text, input.cookingTime, TagSet(input.tags))]
    ensures r.Ok? ==> r.value.lines == db.lines + LinesFor(id, input.ingredients)
  {
    if actor.Anonymous? then Fail(Unauthorized401)
    else if !FieldsValid(db, input) then Fail(BadRequest400)
    else StoreRecipe(db, actor.id, input, id)
  }

  /** POST on recipes with the model's minimum amount enforced. The author
      is always the acting user, whatever the input says. */
  function CreateRecipe(db: Db, actor: Requester, input: RecipeInput, id: RecipeId): (r: Outcome<Db>)
    requires id !in db.recipes
    ensures r.Fail? <==> actor.Anonymous? || !FieldsValid(db, input)
                         || !AmountsValid(input.ingredients)
                         || !Storable(db.lines, db.ingredients.Keys, id, input.ingredients)
    ensures r.Fail? && actor.Anonymous? ==> r.status == Unauthorized401
    ensures r.Fail? && actor.Member? && !(FieldsValid(db, input) && AmountsValid(input.ingredients))
            ==> r.status == BadRequest400
    ensures r.Fail? && actor.Member? && FieldsValid(db, input) && AmountsValid(input.ingredients)
            ==> r.status == ServerError500
    ensures r.Ok? ==> r.status == Created201 && actor.Member?
    ensures r.Ok? ==> r.value == db.(recipes := r.value.recipes, lines := r.value.lines)
    ensures r.Ok? ==> r.value.recipes == db.recipes[id := Recipe(actor.id, input.name, input.text, input.cookingTime, TagSet(input.tags))]
    ensures r.Ok? ==> r.value.lines == db.lines + LinesFor(id, input.ingredients)
  {
    if actor.Anonymous? then Fail(Unauthorized401)
    else if !FieldsValid(db, input) || !AmountsValid(input.ingredients) then Fail(BadRequest400)
    else StoreRecipe(db, actor.id, input, id)
  }

  /** The lines for one recipe, appended after lines of other recipes,
      keep every line well formed and every (recipe, ingredient) pair unique. */
  lemma AddLinesKeepsLinesValid(d: Db, kept: seq<Line>, id: RecipeId, inputs: seq<IngredientInput>)
    requires forall l :: l in kept ==> LineOk(d, l) && l.recipe != id
    requires LineKeysUnique(kept)
    requires id in d.recipes
    requires Storable(kept, d.ingredients.Keys, id, inputs) && AmountsValid(inputs)
    ensures forall l :: l in kept + LinesFor(id, inputs) ==> LineOk(d, l)
    ensures LineKeysUnique(kept + LinesFor(id, inputs))
  {
    var added := LinesFor(id, inputs);
    var all := kept + added;
    forall l | l in all ensures LineOk(d, l) {
      if l !in kept {
        var k :| 0 <= k < |added| && added[k] == l;
      }
    }
    forall a, b | a in all && b in all && a.recipe == b.recipe && a.ingredient == b.ingredient
      ensures a == b
    {
      if a in added && b in added {
        LinesForKeysUnique(id, inputs, a, b);
      }
    }
    LinesForNoDuplicates(id, inputs);
    NoDuplicatesAppend(kept, added);
  }

  /** Distinct ingredient ids give lines with distinct ingredients. */
  lemma LinesForKeysUnique(id: RecipeId, inputs: seq<IngredientInput>, a: Line, b: Line)
    requires forall j, k :: 0 <= j < k < |inputs| ==> inputs[j].id != inputs[k].id
    requires a in LinesFor(id, inputs) && b in LinesFor(id, inputs)
    ensures a.ingredient == b.ingredient ==> a == b
  {
    var added := LinesFor(id, inputs);
    var j :| 0 <= j < |added| && added[j] == a;
    var k :| 0 <= k < |added| && added[k] == b;
    assert a.ingredient == inputs[j].id && b.ingredient == inputs[k].id;
    assert a.ingredient == b.ingredient ==> j == k;
  }

  lemma {:induction false} LinesForNoDuplicates(id: RecipeId, inputs: seq<IngredientInput>)
    requires forall j, k :: 0 <= j < k < |inputs| ==> inputs[j].id != inputs[k].id
    ensures NoDuplicates(LinesFor(id, inputs))
    decreases |inputs|
  {
    if inputs != [] {
      var ls := LinesFor(id, inputs);
      LinesForNoDuplicates(id, inputs[1..]);
      assert ls[1..] == LinesFor(id, inputs[1..]);
      NoDuplicatesTail(ls);
    }
  }

  lemma NoDuplicatesAppend(a: seq<Line>, b: seq<Line>)
    requires NoDuplicates(a) && NoDuplicates(b)
    requires forall x :: x in a ==> x !in b
    ensures NoDuplicates(a + b)
  {
    assert multiset(a + b) == multiset(a) + multiset(b);
    forall x | x in a + b ensures multiset(a + b)[x] <= 1 {
      if x in a {
        assert multiset(b)[x] == 0;
      } else {
        assert multiset(a)[x] == 0;
      }
    }
  }

  lemma CreateRecipeKeepsValid(db: Db, actor: Requester, input: RecipeInput, id: RecipeId)
    requires Valid(db) && id !in db.recipes
    requires actor.Member? ==> actor.id in db.users
    ensures CreateRecipe(db, actor, input, id).Ok? ==> Valid(CreateRecipe(db, actor, input, id).value)
  {
    var r := CreateRecipe(db, actor, input, id);
    if r.Ok? {
      var d := r.value;
      forall rid | rid in d.recipes ensures RecipeOk(d, d.recipes[rid]) {
        if rid != id {
          assert RecipeOk(db, db.recipes[rid]);
        }
      }
      forall l | l in db.lines ensures LineOk(d, l) && l.recipe != id {
        assert LineOk(db, l);
      }
      AddLinesKeepsLinesValid(d, db.lines, id, input.ingredients);
      assert PairsOk(d.favorites, d.users.Keys, d.recipes.Keys);
      assert PairsOk(d.cart, d.users.Keys, d.recipes.Keys);
    }
  }

  /** The field checks the serializer performs on a patch: the fields a full
      update requires are present, and the submitted name, text, cooking
      time and tags pass the same checks as on creation. Amounts are not
      checked. */
  predicate PatchFieldsValid(db: Db, patch: RecipePatch) {
    && (!patch.partial ==> patch.name.Some? && patch.text.Some? && patch.tags.Some? && patch.ingredients.Some?)
    && (patch.name.Some? ==> NameOk(patch.name.value))
    && (patch.text.Some? ==> TextOk(patch.text.value))
    && (patch.cookingTime.Some? ==> patch.cookingTime.value >= MinCookingTime)
    && (patch.tags.Some? ==> forall t :: t in patch.tags.value ==> t in db.tags)
  }

  /** The field checks with the model's minimum amount enforced. */
  predicate PatchValid(db: Db, patch: RecipePatch) {
    && PatchFieldsValid(db, patch)
    && (patch.ingredients.Some? ==> AmountsValid(patch.ingredients.value))
  }

  function Patched(rec: Recipe, patch: RecipePatch): Recipe {
    Recipe(
      rec.author,
      patch.name.GetOr(rec.name),
      patch.text.GetOr(rec.text),
      patch.cookingTime.GetOr(rec.cookingTime),
      if patch.tags.Some? then TagSet(patch.tags.value) else rec.tags)
  }

  /** The new line table: unchanged without ingredients, otherwise the
      recipe's lines cleared and the submitted ones stored. */
  function ReplaceLines(db: Db, id: RecipeId, ingredients: Option<seq<IngredientInput>>): (r: Option<seq<Line>>)
    ensures ingredients.None? ==> r == Some(db.lines)
    ensures ingredients.Some? ==>
      (r.Some? <==> Storable(Filter(db.lines, NotOfRecipe(id)), db.ingredients.Keys, id, ingredients.value))
    ensures ingredients.Some? && r.Some? ==> r.value == Filter(db.lines, NotOfRecipe(id)) + LinesFor(id, ingredients.value)
    ensures ingredients.Some? && r.Some? ==> LinesOf(r.value, id) == LinesFor(id, ingredients.value)
    ensures ingredients.Some? && r.Some? ==> Filter(r.value, NotOfRecipe(id)) == Filter(db.lines, NotOfRecipe(id))
  {
    match ingredients
    case None => Some(db.lines)
    case Some(ins) =>
      ReplacedLinesOf(db.lines, id, ins);
      CreateIngredients(Filter(db.lines, NotOfRecipe(id)), db.ingredients.Keys, id, ins)
  }

  /** Store a checked patch of recipe `id`: the line table is rebuilt when
      ingredients are given (500 when a line cannot be stored), and the
      given fields replace the stored ones. */
  function StorePatch(db: Db, id: RecipeId, patch: RecipePatch): (r: Outcome<Db>)
    requires id in db.recipes
    ensures r.Fail? <==> (patch.ingredients.Some? &&
      !Storable(Filter(db.lines, NotOfRecipe(id)), db.ingredients.Keys, id, patch.ingredients.value))
    ensures r.Fail? ==> r.status == ServerError500
    ensures r.Ok? ==> r.status == Ok200 && r.value == db.(recipes := r.value.recipes, lines := r.value.lines)
    ensures r.Ok? ==> r.value.recipes == db.recipes[id := Patched(db.recipes[id], patch)]
    ensures r.Ok? && patch.ingredients.None? ==> r.value.lines == db.lines
    ensures r.Ok? && patch.ingredients.Some? ==>
      r.value.lines == Filter(db.lines, NotOfRecipe(id)) + LinesFor(id, patch.ingredients.value)
    ensures r.Ok? && patch.ingredients.Some? ==> LinesOf(r.value.lines, id) == LinesFor(id, patch.ingredients.value)
    ensures r.Ok? && patch.ingredients.Some? ==> Filter(r.value.lines, NotOfRecipe(id)) == Filter(db.lines, NotOfRecipe(id))
  {
    match ReplaceLines(db, id, patch.ingredients)
    case None => Fail(ServerError500)
    case Some(lines) =>
      Ok(Ok200, db.(recipes := db.recipes[id := Patched(db.recipes[id], patch)], lines := lines))
  }

  /** PUT or PATCH on a recipe, as the code stands: 401 for anonymous
      requests, 404 for an unknown recipe, 403 unless the requester is the
      author, 400 for missing or invalid fields other than amounts; then
      the patch is stored, and an amount the column rejects answers 500. */
  function UpdateRecipeAsWritten(db: Db, actor: Requester, id: RecipeId, patch: RecipePatch): (r: Outcome<Db>)
    ensures actor.Anonymous? ==> r == Fail(Unauthorized401)
    ensures actor.Member? && id !in db.recipes ==> r == Fail(NotFound404)
    ensures actor.Member? && id in db.recipes && actor.id != db.recipes[id].author ==> r == Fail(Forbidden403)
    ensures id in db.recipes && actor == Member(db.recipes[id].author) && !PatchFieldsValid(db, patch) ==> r == Fail(BadRequest400)
    ensures id in db.recipes && actor == Member(db.recipes[id].author) && PatchFieldsValid(db, patch) ==>
      (r.Fail? <==> (patch.ingredients.Some? &&
         !Storable(Filter(db.lines, NotOfRecipe(id)), db.ingredients.Keys, id, patch.ingredients.value)))
    ensures r.Fail? && id in db.recipes && actor == Member(db.recipes[id].author) && PatchFieldsValid(db, patch) ==>
      r.status == ServerError500
    ensures r.Ok? ==> r.status == Ok200 && id in db.recipes && actor == Member(db.recipes[id].author) && PatchFieldsValid(db, patch)
    ensures r.Ok? ==> r.value == db.(recipes := r.value.recipes, lines := r.value.lines)
    ensures r.Ok? ==> r.value.recipes == db.recipes[id := Patched(db.recipes[id], patch)]
    ensures r.Ok? && patch.ingredients.None? ==> r.value.lines == db.lines
    ensures r.Ok? && patch.ingredients.Some? ==>
      r.value.lines == Filter(db.lines, NotOfRecipe(id)) + LinesFor(id, patch.ingredients.value)
    ensures r.Ok? && patch.ingredients.Some? ==> LinesOf(r.value.lines, id) == LinesFor(id, patch.ingredients.value)
    ensures r.Ok? && patch.ingredients.Some? ==> Filter(r.value.lines, NotOfRecipe(id)) == Filter(db.lines, NotOfRecipe(id))
  {
    if actor.Anonymous? then Fail(Unauthorized401)
    else if id !in db.recipes then Fail(NotFound404)
    else if !OwnerOrReadOnly(if patch.partial then Patch else Put, actor, db.recipes[id].author) then Fail(Forbidden403)
    else if !PatchFieldsValid(db, patch) then Fail(BadRequest400)
    else StorePatch(db, id, patch)
  }

  /** PUT or PATCH on a recipe with the model's minimum amount enforced:
      401/404/403 as written, 400 for missing or invalid fields including
      amounts below the minimum; then the line table is rebuilt when
      ingredients are given and the tags are replaced when tags are given. */
  function UpdateRecipe(db: Db, actor: Requester, id: RecipeId, patch: RecipePatch): (r: Outcome<Db>)
    ensures actor.Anonymous? ==> r == Fail(Unauthorized401)
    ensures actor.Member? && id !in db.recipes ==> r == Fail(NotFound404)
    ensures actor.Member? && id in db.recipes && actor.id != db.recipes[id].author ==> r == Fail(Forbidden403)
    ensures r.Ok? ==> r.status == Ok200 && id in db.recipes && actor == Member(db.recipes[id].author)
    ensures r.Ok? ==> r.value == db.(recipes := r.value.recipes, lines := r.value.lines)
    ensures r.Ok? ==> id in r.value.recipes && r.value.recipes == db.recipes[id := r.value.recipes[id]]
    ensures id in db.recipes && actor == Member(db.recipes[id].author) && !PatchValid(db, patch) ==> r == Fail(BadRequest400)
    ensures id in db.recipes && actor == Member(db.recipes[id].author) && PatchValid(db, patch) ==>
      (r.Fail? <==> (patch.ingredients.Some? &&
         !Storable(Filter(db.lines, NotOfRecipe(id)), db.ingredients.Keys, id, patch.ingredients.value)))
    ensures r.Fail? && id in db.recipes && actor == Member(db.recipes[id].author) && PatchValid(db, patch) ==>
      r.status == ServerError500
    ensures r.Ok? ==> PatchValid(db, patch)
    ensures r.Ok? ==> r.value.recipes[id].author == db.recipes[id].author
    ensures r.Ok? ==> r.value.recipes[id].name == patch.name.GetOr(db.recipes[id].name)
    ensures r.Ok? ==> r.value.recipes[id].text == patch.text.GetOr(db.recipes[id].text)
    ensures r.Ok? ==> r.value.recipes[id].cookingTime == patch.cookingTime.GetOr(db.recipes[id].cookingTime)
    ensures r.Ok? ==> r.value.recipes[id].tags == if patch.tags.Some? then TagSet(patch.tags.value) else db.recipes[id].tags
    ensures r.Ok? && patch.ingredients.None? ==> r.value.lines == db.lines
    ensures r.Ok? && patch.ingredients.Some? ==> LinesOf(r.value.lines, id) == LinesFor(id, patch.ingredients.value)
    ensures r.Ok? && patch.ingredients.Some? ==> Filter(r.value.lines, NotOfRecipe(id)) == Filter(db.lines, NotOfRecipe(id))
  {
    if actor.Anonymous? then Fail(Unauthorized401)
    else if id !in db.recipes then Fail(NotFound404)
    else if !OwnerOrReadOnly(if patch.partial then Patch else Put, actor, db.recipes[id].author) then Fail(Forbidden403)
    else if !PatchValid(db, patch) then Fail(BadRequest400)
    else StorePatch(db, id, patch)
  }

  /** After the replacement the recipe owns exactly the submitted lines and
      the other recipes' lines are those they had. */
  lemma ReplacedLinesOf(lines: seq<Line>, id: RecipeId, ins: seq<IngredientInput>)
    ensures var all := Filter(lines, NotOfRecipe(id)) + LinesFor(id, ins);
      && LinesOf(all, id) == LinesFor(id, ins)
      && Filter(all, NotOfRecipe(id)) == Filter(lines, NotOfRecipe(id))
  {
    var kept := Filter(lines, NotOfRecipe(id));
    var added := LinesFor(id, ins);
    FilterAppend(kept, added, OfRecipe(id));
    FilterAppend(kept, added, NotOfRecipe(id));
    FilterNone(kept, OfRecipe(id));
    FilterAll(added, OfRecipe(id));
    FilterAll(kept, NotOfRecipe(id));
    FilterNone(added, NotOfRecipe(id));
  }

  /** Replacing one recipe by a well-formed record, and optionally its
      lines by storable ones, keeps the database valid. */
  lemma ReplaceRecipeKeepsValid(db: Db, id: RecipeId, rec: Recipe, lines: seq<Line>, ins: Option<seq<IngredientInput>>)
    requires Valid(db) && id in db.recipes && RecipeOk(db, rec)
    requires ins.None? ==> lines == db.lines
    requires ins.Some? ==> && Storable(Filter(db.lines, NotOfRecipe(id)), db.ingredients.Keys, id, ins.value)
                           && AmountsValid(ins.value)
                           && lines == Filter(db.lines, NotOfRecipe(id)) + LinesFor(id, ins.value)
    ensures Valid(db.(recipes := db.recipes[id := rec], lines := lines))
  {
    var d := db.(recipes := db.recipes[id := rec], lines := lines);
    assert d.recipes.Keys == db.recipes.Keys;
    forall rid | rid in d.recipes ensures RecipeOk(d, d.recipes[rid]) {
      assert RecipeOk(db, db.recipes[rid]);
    }
    if ins.Some? {
      var kept := Filter(db.lines, NotOfRecipe(id));
      FilterNoDuplicates(db.lines, NotOfRecipe(id));
      forall l | l in kept ensures LineOk(d, l) && l.recipe != id {
        assert LineOk(db, l);
      }
      AddLinesKeepsLinesValid(d, kept, id, ins.value);
    } else {
      forall l | l in d.lines ensures LineOk(d, l) {
        assert LineOk(db, l);
      }
    }
    assert PairsOk(d.favorites, d.users.Keys, d.recipes.Keys);
    assert PairsOk(d.cart, d.users.Keys, d.recipes.Keys);
  }

  lemma UpdateRecipeKeepsValid(db: Db, actor: Requester, id: RecipeId, patch: RecipePatch)
    requires Valid(db)
    ensures UpdateRecipe(db, actor, id, patch).Ok? ==> Valid(UpdateRecipe(db, actor, id, patch).value)
  {
    var r := UpdateRecipe(db, actor, id, patch);
    if r.Ok? {
      var rl := ReplaceLines(db, id, patch.ingredients);
      var rec := Patched(db.recipes[id], patch);
      assert PatchValid(db, patch) && r == StorePatch(db, id, patch) && rl.Some?;
      assert r.value == db.(recipes := db.recipes[id := rec], lines := rl.value);
      assert RecipeOk(db, rec) by {
        assert RecipeOk(db, db.recipes[id]);
      }
      ReplaceRecipeKeepsValid(db, id, rec, rl.value, patch.ingredients);
    }
  }

  /** DELETE on a recipe: only its author may delete it, and the deletion
      cascades. */
  function DestroyRecipe(db: Db, actor: Requester, id: RecipeId): (r: Outcome<Db>)
    ensures actor.Anonymous? ==> r == Fail(Unauthorized401)
    ensures actor.Member? && id !in db.recipes ==> r == Fail(NotFound404)
    ensures actor.Member? && id in db.recipes && actor.id != db.recipes[id].author ==> r == Fail(Forbidden403)
    ensures r.Ok? ==> r.status == NoContent204 && id in db.recipes && actor == Member(db.recipes[id].author)
    ensures r.Ok? ==> r.value == DeleteRecipe(db, id)
    ensures actor.Member? && id in db.recipes && actor.id == db.recipes[id].author ==> r == Ok(NoContent204, DeleteRecipe(db, id))
  {
    if actor.Anonymous? then Fail(Unauthorized401)
    else if id !in db.recipes then Fail(NotFound404)
    else if !OwnerOrReadOnly(Delete, actor, db.recipes[id].author) then Fail(Forbidden403)
    else Ok(NoContent204, DeleteRecipe(db, id))
  }

  /** Counterexample for the unchecked amount: a valid database, an input
      whose only ingredient has amount 0, and the code as written stores it,
      leaving a line below the model's minimum; the corrected endpoint
      refuses it with 400. */
  lemma ZeroAmountStoredAsWritten()
    ensures var db := Db(map[1 := User("cook", "cook@example.org", "hash")], map[], map[7 := Ingredient("salt", "g")],
                         map[], [], [], [], []);
            var input := RecipeInput("soup", "boil", 10, [], [IngredientInput(7, 0)]);
            && Valid(db)
            && CreateRecipeAsWritten(db, Member(1), input, 1).Ok?
            && Line(1, 7, 0) in CreateRecipeAsWritten(db, Member(1), input, 1).value.lines
            && !Valid(CreateRecipeAsWritten(db, Member(1), input, 1).value)
            && CreateRecipe(db, Member(1), input, 1) == Fail(BadRequest400)
  {
    var db := Db(map[1 := User("cook", "cook@example.org", "hash")], map[], map[7 := Ingredient("salt", "g")],
                 map[], [], [], [], []);
    var input := RecipeInput("soup", "boil", 10, [], [IngredientInput(7, 0)]);
    assert Storable(db.lines, db.ingredients.Keys, 1, input.ingredients);
    var d := CreateRecipeAsWritten(db, Member(1), input, 1).value;
    assert d.lines == [Line(1, 7, 0)];
    assert !LineOk(d, Line(1, 7, 0));
  }

  /** A valid database with one recipe by user 1 that uses ingredient 7. */
  const SoupDb: Db := Db(map[1 := User("cook", "cook@example.org", "hash")], map[], map[7 := Ingredient("salt", "g")],
                         map[1 := Recipe(1, "soup", "boil", 10, {})], [Line(1, 7, 5)], [], [], [])

  /** Counterexample for the unchecked amount on update: the author patches
      the recipe's ingredients to one line of amount 0. The code as written
      stores the line and answers 200, leaving a line below the model's
      minimum; the corrected endpoint refuses it with 400. */
  lemma ZeroAmountUpdateStoredAsWritten()
    ensures var zero := RecipePatch(true, None, None, None, None, Some([IngredientInput(7, 0)]));
            && Valid(SoupDb)
            && UpdateRecipeAsWritten(SoupDb, Member(1), 1, zero).Ok?
            && UpdateRecipeAsWritten(SoupDb, Member(1), 1, zero).value.lines == [Line(1, 7, 0)]
            && !Valid(UpdateRecipeAsWritten(SoupDb, Member(1), 1, zero).value)
            && UpdateRecipe(SoupDb, Member(1), 1, zero) == Fail(BadRequest400)
  {
    var db := SoupDb;
    var zero := RecipePatch(true, None, None, None, None, Some([IngredientInput(7, 0)]));
    SoupDbValid();
    assert Filter(db.lines, NotOfRecipe(1)) == [];
    assert Storable([], db.ingredients.Keys, 1, zero.ingredients.value);
    var r := UpdateRecipeAsWritten(db, Member(1), 1, zero);
    assert r == StorePatch(db, 1, zero);
    assert r.value.lines == [Line(1, 7, 0)];
    BelowMinimumInvalid(r.value, Line(1, 7, 0));
    assert zero.ingredients.value[0].amount == 0;
  }

  /** A stored line below the minimum amount breaks validity. */
  lemma BelowMinimumInvalid(d: Db, l: Line)
    requires l in d.lines && l.amount < MinAmount
    ensures !Valid(d)
  {
    assert !LineOk(d, l);
  }

  lemma SoupDbValid()
    ensures Valid(SoupDb)
  {
    assert LineOk(SoupDb, Line(1, 7, 5));
  }

  /** A negative amount passes the code's checks too and is stopped only
      by the column's range: 500 as written, 400 once corrected. */
  lemma NegativeAmountUpdateAsWritten()
    ensures var negative := RecipePatch(true, None, None, None, None, Some([IngredientInput(7, -1)]));
            && UpdateRecipeAsWritten(SoupDb, Member(1), 1, negative) == Fail(ServerError500)
            && UpdateRecipe(SoupDb, Member(1), 1, negative) == Fail(BadRequest400)
  {
    var negative := RecipePatch(true, None, None, None, None, Some([IngredientInput(7, -1)]));
    assert negative.ingredients.value[0].amount == -1;
  }
}

=== FILE: seqs.dfy ===
/** Generic sequence operations used to describe tables of rows and the
    joins over them, with the permutation facts the aggregation relies on. */
module Seqs {

  /** Concatenation of `f(x)` over the elements of `xs`, in order. */
  function FlatMap<X, Y>(xs: seq<X>, f: X -> seq<Y>): seq<Y>
  {
    if xs == [] then [] else f(xs[0]) + FlatMap(xs[1..], f)
  }

  /** The elements of `s` that satisfy `keep`, in their original order. */
  function Filter<X(==)>(s: seq<X>, keep: X -> bool): (r: seq<X>)
    ensures |r| <= |s|
    ensures forall x :: x in r ==> x in s && keep(x)
    ensures forall x :: x in s && keep(x) ==> x in r
  {
    if s == [] then []
    else (if keep(s[0]) then [s[0]] else []) + Filter(s[1..], keep)
  }

  /** A duplicate-free sequence has a head that does not recur and a duplicate-free tail. */
  lemma NoDuplicatesTail<X>(s: seq<X>)
    requires |s| > 0
    ensures NoDuplicates(s) ==> s[0] !in s[1..] && NoDuplicates(s[1..])
    ensures NoDuplicates(s[1..]) && s[0] !in s[1..] ==> NoDuplicates(s)
  {
    assert s == [s[0]] + s[1..];
    assert multiset(s) == multiset{s[0]} + multiset(s[1..]);
    if NoDuplicates(s) {
      assert multiset(s)[s[0]] == 1 + multiset(s[1..])[s[0]];
      forall x | x in s[1..]
        ensures multiset(s[1..])[x] <= 1
      {
        assert x in s;
      }
    }
  }

  /** Filtering keeps every copy of a kept element and drops every copy of the others. */
  lemma {:induction false} FilterCount<X>(s: seq<X>, keep: X -> bool, x: X)
    ensures multiset(Filter(s, keep))[x] == if keep(x) then multiset(s)[x] else 0
    decreases |s|
  {
    if s != [] {
      assert s == [s[0]] + s[1..];
      FilterCount(s[1..], keep, x);
    }
  }

  /** Filtering a duplicate-free sequence leaves it duplicate-free. */
  lemma FilterNoDuplicates<X>(s: seq<X>, keep: X -> bool)
    ensures NoDuplicates(s) ==> NoDuplicates(Filter(s, keep))
  {
    forall x | NoDuplicates(s) && x in Filter(s, keep)
      ensures multiset(Filter(s, keep))[x] <= 1
    {
      FilterCount(s, keep, x);
    }
  }

  /** No element occurs twice. */
  predicate NoDuplicates<X(==)>(s: seq<X>) {
    forall x :: x in s ==> multiset(s)[x] <= 1
  }

  lemma {:induction false} FlatMapAppend<X, Y>(a: seq<X>, b: seq<X>, f: X -> seq<Y>)
    ensures FlatMap(a + b, f) == FlatMap(a, f) + FlatMap(b, f)
    decreases |a|
  {
    if a == [] {
      assert a + b == b;
    } else {
      assert (a + b)[1..] == a[1..] + b;
      FlatMapAppend(a[1..], b, f);
    }
  }

  lemma FlatMapSingle<X, Y>(x: X, f: X -> seq<Y>)
    ensures FlatMap([x], f) == f(x)
  {
    assert [x][1..] == [];
  }

  /** An element of a FlatMap comes from the image of some input element. */
  lemma {:induction false} FlatMapMember<X, Y>(xs: seq<X>, f: X -> seq<Y>, y: Y)
    ensures y in FlatMap(xs, f) <==> exists x :: x in xs && y in f(x)
    decreases |xs|
  {
    if xs != [] {
      FlatMapMember(xs[1..], f, y);
      if y in FlatMap(xs[1..], f) {
        var x :| x in xs[1..] && y in f(x);
        assert x in xs;
      }
      if exists x :: x in xs && y in f(x) {
        var x :| x in xs && y in f(x);
        if x != xs[0] {
          assert x in xs[1..];
        }
      }
    }
  }

  /** Splitting `s` at an occurrence of `x` isolates the image of `x`. */
  lemma FlatMapSplit<X, Y>(s: seq<X>, i: nat, f: X -> seq<Y>)
    requires i < |s|
    ensures FlatMap(s, f) == FlatMap(s[..i], f) + f(s[i]) + FlatMap(s[i + 1..], f)
  {
    var left, right := s[..i], s[i + 1..];
    assert s == left + ([s[i]] + right);
    FlatMapAppend(left, [s[i]] + right, f);
    FlatMapCons(s[i], right, f);
  }

  lemma FlatMapCons<X, Y>(x: X, s: seq<X>, f: X -> seq<Y>)
    ensures FlatMap([x] + s, f) == f(x) + FlatMap(s, f)
  {
    assert ([x] + s)[0] == x && ([x] + s)[1..] == s;
  }

  /** Taking out the element at `i` takes exactly its image out of the
      FlatMap, as multisets. */
  lemma FlatMapRemoveAt<X, Y>(s: seq<X>, i: nat, f: X -> seq<Y>)
    requires i < |s|
    ensures multiset(FlatMap(s, f)) == multiset(FlatMap(s[..i] + s[i + 1..], f)) + multiset(f(s[i]))
  {
    var left, right := FlatMap(s[..i], f), FlatMap(s[i + 1..], f);
    FlatMapSplit(s, i, f);
    FlatMapAppend(s[..i], s[i + 1..], f);
    assert multiset(left + f(s[i]) + right) == multiset(left) + multiset(f(s[i])) + multiset(right);
  }

  /** Reordering the input of a FlatMap only reorders its output. */
  lemma {:induction false} FlatMapPermutation<X, Y>(a: seq<X>, b: seq<X>, f: X -> seq<Y>)
    requires multiset(a) == multiset(b)
    ensures multiset(FlatMap(a, f)) == multiset(FlatMap(b, f))
    decreases |a|
  {
    if a == [] {
      assert |multiset(b)| == 0;
      assert b == [];
    } else {
      var x := a[0];
      assert x in multiset(b);
      var i :| 0 <= i < |b| && b[i] == x;
      var rest := b[..i] + b[i + 1..];
      MultisetRemoveAt(b, i);
      assert a == [x] + a[1..];
      assert multiset(a[1..]) == multiset(rest);
      FlatMapPermutation(a[1..], rest, f);
      FlatMapRemoveAt(b, i, f);
      assert FlatMap(a, f) == f(x) + FlatMap(a[1..], f);
    }
  }

  /** Taking out the element at `i` takes one copy of it out of the multiset. */
  lemma MultisetRemoveAt<X>(s: seq<X>, i: nat)
    requires i < |s|
    ensures multiset(s[..i] + s[i + 1..]) == multiset(s) - multiset{s[i]}
  {
    assert s == s[..i] + [s[i]] + s[i + 1..];
    assert multiset(s) == multiset(s[..i]) + multiset{s[i]} + multiset(s[i + 1..]);
  }

  lemma {:induction false} FilterAppend<X>(a: seq<X>, b: seq<X>, keep: X -> bool)
    ensures Filter(a + b, keep) == Filter(a, keep) + Filter(b, keep)
    decreases |a|
  {
    if a == [] {
      assert a + b == b;
    } else {
      assert (a + b)[0] == a[0] && (a + b)[1..] == a[1..] + b;
      FilterAppend(a[1..], b, keep);
    }
  }

  lemma {:induction false} FilterNone<X>(s: seq<X>, keep: X -> bool)
    requires forall x :: x in s ==> !keep(x)
    ensures Filter(s, keep) == []
    decreases |s|
  {
    if s != [] {
      FilterNone(s[1..], keep);
    }
  }

  lemma {:induction false} FilterAll<X>(s: seq<X>, keep: X -> bool)
    requires forall x :: x in s ==> keep(x)
    ensures Filter(s, keep) == s
    decreases |s|
  {
    if s != [] {
      FilterAll(s[1..], keep);
      assert s == [s[0]] + s[1..];
    }
  }

  /** Dropping only elements whose image is empty does not change a FlatMap. */
  lemma {:induction false} FlatMapFilter<X, Y>(s: seq<X>, keep: X -> bool, f: X -> seq<Y>)
    requires forall x :: x in s && !keep(x) ==> f(x) == []
    ensures FlatMap(Filter(s, keep), f) == FlatMap(s, f)
    decreases |s|
  {
    if s != [] {
      FlatMapFilter(s[1..], keep, f);
      if keep(s[0]) {
        FlatMapAppend([s[0]], Filter(s[1..], keep), f);
        FlatMapSingle(s[0], f);
      } else {
        assert Filter(s, keep) == Filter(s[1..], keep);
        assert f(s[0]) == [];
      }
    }
  }

  /** Appending an element that does not yet occur keeps a table duplicate-free. */
  lemma AppendNoDuplicates<X>(s: seq<X>, x: X)
    ensures NoDuplicates(s) && x !in s ==> NoDuplicates(s + [x])
  {
    assert multiset(s + [x]) == multiset(s) + multiset{x};
  }
}

=== FILE: shopping_list.dfy ===
/** The shopping list of one user: the ingredient lines of every recipe in
    their cart, grouped by (ingredient name, measurement unit) with the
    amounts summed, ordered by ingredient name. `IsShoppingListOf` states
    what a correct list is; `Aggregate` computes one. */
module ShoppingList {
  import opened Seqs
  import opened Strings
  import opened Domain

  /** What the query groups on. */
  datatype Key = Key(name: string, unit: string)

  /** One joined row: an ingredient line of a carted recipe. */
  datatype Entry = Entry(name: string, unit: string, amount: int) {
    function KeyOf(): Key { Key(name, unit) }
  }

  /** One output row: a group and the sum of its amounts. */
  datatype Group = Group(name: string, unit: string, total: int) {
    function KeyOf(): Key { Key(name, unit) }
  }

  // ---------------------------------------------------------------------
  // The join: cart rows of the user -> recipes -> lines -> ingredients.

  function CartRow(user: UserId): Pair -> seq<RecipeId> {
    (p: Pair) => if p.user == user then [p.target] else []
  }

  /** The carted recipes of `user`, one per cart row, in table order. */
  function CartRecipes(cart: seq<Pair>, user: UserId): seq<RecipeId> {
    FlatMap(cart, CartRow(user))
  }

  /** A line joined with its ingredient; a line whose ingredient is gone
      joins nothing. */
  function LineEntry(ingredients: map<IngredientId, Ingredient>): Line -> seq<Entry> {
    (l: Line) =>
      if l.ingredient in ingredients
      then [Entry(ingredients[l.ingredient].name, ingredients[l.ingredient].unit, l.amount)]
      else []
  }

  function RecipeEntries(lines: seq<Line>, ingredients: map<IngredientId, Ingredient>, r: RecipeId): seq<Entry> {
    FlatMap(LinesOf(lines, r), LineEntry(ingredients))
  }

  function EntriesOf(lines: seq<Line>, ingredients: map<IngredientId, Ingredient>): RecipeId -> seq<Entry> {
    (r: RecipeId) => RecipeEntries(lines, ingredients, r)
  }

  /** Every joined row the query groups for `user`. */
  function Joined(db: Db, user: UserId): seq<Entry> {
    FlatMap(CartRecipes(db.cart, user), EntriesOf(db.lines, db.ingredients))
  }

  // ---------------------------------------------------------------------
  // What a correct list is.

  /** Sum of the amounts of the rows with key `k`. */
  function SumFor(es: seq<Entry>, k: Key): int {
    if es == [] then 0
    else (if es[0].KeyOf() == k then es[0].amount else 0) + SumFor(es[1..], k)
  }

  function EntryKeys(es: seq<Entry>): set<Key> {
    set e | e in es :: e.KeyOf()
  }

  function GroupKeys(gs: seq<Group>): set<Key> {
    set g | g in gs :: g.KeyOf()
  }

  /** Non-decreasing by name; groups with equal names may come in any order. */
  predicate SortedByName(gs: seq<Group>) {
    forall i, j :: 0 <= i < j < |gs| ==> !Lt(gs[j].name, gs[i].name)
  }

  predicate DistinctKeys(gs: seq<Group>) {
    forall i, j :: 0 <= i < j < |gs| ==> gs[i].KeyOf() != gs[j].KeyOf()
  }

  /** `gs` is the grouped list of the rows `es`: one group per key that
      occurs, carrying the key's sum, sorted by name. */
  predicate IsShoppingListOf(gs: seq<Group>, es: seq<Entry>) {
    && SortedByName(gs)
    && DistinctKeys(gs)
    && GroupKeys(gs) == EntryKeys(es)
    && forall g :: g in gs ==> g.total == SumFor(es, g.KeyOf())
  }

  // ---------------------------------------------------------------------
  // Computing it: insert the rows one at a time into a sorted list.

  /** Sum of the totals of the groups with key `k`. */
  function TotalIn(gs: seq<Group>, k: Key): int {
    if gs == [] then 0
    else (if gs[0].KeyOf() == k then gs[0].total else 0) + TotalIn(gs[1..], k)
  }

  /** Add one row: bump its group if present, otherwise insert a new group
      before the first group with a greater name. */
  function Add(gs: seq<Group>, e: Entry): seq<Group>
    decreases |gs|
  {
    if gs == [] then [Group(e.name, e.unit, e.amount)]
    else if gs[0].KeyOf() == e.KeyOf() then [gs[0].(total := gs[0].total + e.amount)] + gs[1..]
    else if Lt(e.name, gs[0].name) then [Group(e.name, e.unit, e.amount)] + gs
    else [gs[0]] + Add(gs[1..], e)
  }

  lemma {:induction false} AddTotal(gs: seq<Group>, e: Entry, k: Key)
    ensures TotalIn(Add(gs, e), k) == TotalIn(gs, k) + (if e.KeyOf() == k then e.amount else 0)
    decreases |gs|
  {
    if gs != [] && gs[0].KeyOf() != e.KeyOf() && !Lt(e.name, gs[0].name) {
      AddTotal(gs[1..], e, k);
      assert ([gs[0]] + Add(gs[1..], e))[1..] == Add(gs[1..], e);
    } else if gs != [] && gs[0].KeyOf() == e.KeyOf() {
      assert ([gs[0].(total := gs[0].total + e.amount)] + gs[1..])[1..] == gs[1..];
    } else if gs != [] {
      assert ([Group(e.name, e.unit, e.amount)] + gs)[1..] == gs;
    }
  }

  lemma GroupKeysCons(g: Group, rest: seq<Group>)
    ensures GroupKeys([g] + rest) == {g.KeyOf()} + GroupKeys(rest)
  {
    var s := [g] + rest;
    forall k | k in GroupKeys(s) ensures k in {g.KeyOf()} + GroupKeys(rest) {
      var h :| h in s && h.KeyOf() == k;
      if h != g {
        assert h in rest;
      }
    }
    forall k | k in GroupKeys(rest) ensures k in GroupKeys(s) {
      var h :| h in rest && h.KeyOf() == k;
      assert h in s;
    }
  }

  lemma {:induction false} AddMembers(gs: seq<Group>, e: Entry)
    ensures GroupKeys(Add(gs, e)) == GroupKeys(gs) + {e.KeyOf()}
    ensures forall g :: g in Add(gs, e) ==> g in gs || g.name == e.name
    decreases |gs|
  {
    if gs == [] {
      var n := Group(e.name, e.unit, e.amount);
      GroupKeysCons(n, []);
    } else {
      assert gs == [gs[0]] + gs[1..];
      GroupKeysCons(gs[0], gs[1..]);
      if gs[0].KeyOf() == e.KeyOf() {
        var h := gs[0].(total := gs[0].total + e.amount);
        GroupKeysCons(h, gs[1..]);
        assert forall g :: g in Add(gs, e) ==> g == h || g in gs[1..];
      } else if Lt(e.name, gs[0].name) {
        var n := Group(e.name, e.unit, e.amount);
        GroupKeysCons(n, gs);
      } else {
        AddMembers(gs[1..], e);
        GroupKeysCons(gs[0], Add(gs[1..], e));
      }
    }
  }

  /** A sorted list splits into its first group and a sorted tail whose
      names are all at least the first name. */
  lemma SortedSplit(gs: seq<Group>)
    requires SortedByName(gs) && gs != []
    ensures SortedByName(gs[1..])
    ensures forall h :: h in gs[1..] ==> !Lt(h.name, gs[0].name)
  {
    forall h | h in gs[1..] ensures !Lt(h.name, gs[0].name) {
      var m :| 0 <= m < |gs[1..]| && gs[1..][m] == h;
      assert gs[m + 1] == h;
    }
  }

  /** Putting a group in front of a sorted list keeps it sorted when no
      name in the list is smaller. */
  lemma SortedCons(g: Group, rest: seq<Group>)
    requires SortedByName(rest)
    requires forall h :: h in rest ==> !Lt(h.name, g.name)
    ensures SortedByName([g] + rest)
  {
    var r := [g] + rest;
    forall i, j | 0 <= i < j < |r| ensures !Lt(r[j].name, r[i].name) {
      assert r[j] == rest[j - 1];
      if i > 0 {
        assert r[i] == rest[i - 1];
      }
    }
  }

  lemma {:induction false} AddSorted(gs: seq<Group>, e: Entry)
    requires SortedByName(gs)
    ensures SortedByName(Add(gs, e))
    decreases |gs|
  {
    if gs == [] {
    } else if gs[0].KeyOf() == e.KeyOf() {
      SortedSplit(gs);
      SortedCons(gs[0].(total := gs[0].total + e.amount), gs[1..]);
    } else if Lt(e.name, gs[0].name) {
      var n := Group(e.name, e.unit, e.amount);
      SortedSplit(gs);
      forall h | h in gs ensures !Lt(h.name, n.name) {
        if Lt(h.name, n.name) {
          LtTransitive(h.name, n.name, gs[0].name);
          if h == gs[0] {
            LtIrreflexive(gs[0].name);
          }
        }
      }
      SortedCons(n, gs);
    } else {
      SortedSplit(gs);
      AddSorted(gs[1..], e);
      AddMembers(gs[1..], e);
      SortedCons(gs[0], Add(gs[1..], e));
    }
  }

  lemma DistinctCons(g: Group, rest: seq<Group>)
    ensures DistinctKeys([g] + rest) <==> DistinctKeys(rest) && g.KeyOf() !in GroupKeys(rest)
  {
    var s := [g] + rest;
    if DistinctKeys(rest) && g.KeyOf() !in GroupKeys(rest) {
      forall i, j | 0 <= i < j < |s| ensures s[i].KeyOf() != s[j].KeyOf() {
        if i == 0 {
          assert s[j] in rest;
        } else {
          assert s[i] == rest[i - 1] && s[j] == rest[j - 1];
        }
      }
    }
    if DistinctKeys(s) {
      forall i, j | 0 <= i < j < |rest| ensures rest[i].KeyOf() != rest[j].KeyOf() {
        assert rest[i] == s[i + 1] && rest[j] == s[j + 1];
      }
      forall h | h in rest ensures h.KeyOf() != g.KeyOf() {
        var m :| 0 <= m < |rest| && rest[m] == h;
        assert s[0] == g && s[m + 1] == h;
      }
    }
  }

  lemma {:induction false} AddDistinct(gs: seq<Group>, e: Entry)
    requires SortedByName(gs) && DistinctKeys(gs)
    ensures DistinctKeys(Add(gs, e))
    decreases |gs|
  {
    if gs == [] {
    } else if gs[0].KeyOf() == e.KeyOf() {
      var r := Add(gs, e);
      forall i, j | 0 <= i < j < |r| ensures r[i].KeyOf() != r[j].KeyOf() {
        assert r[i].KeyOf() == gs[i].KeyOf() && r[j].KeyOf() == gs[j].KeyOf();
      }
    } else if Lt(e.name, gs[0].name) {
      assert gs == [gs[0]] + gs[1..];
      DistinctCons(Group(e.name, e.unit, e.amount), gs);
    } else {
      assert gs == [gs[0]] + gs[1..];
      DistinctCons(gs[0], gs[1..]);
      assert SortedByName(gs[1..]) by {
        forall i, j | 0 <= i < j < |gs[1..]| ensures !Lt(gs[1..][j].name, gs[1..][i].name) {
          assert gs[1..][i] == gs[i + 1] && gs[1..][j] == gs[j + 1];
        }
      }
      AddDistinct(gs[1..], e);
      AddMembers(gs[1..], e);
      DistinctCons(gs[0], Add(gs[1..], e));
    }
  }

  lemma {:induction false} TotalInAbsent(gs: seq<Group>, k: Key)
    requires k !in GroupKeys(gs)
    ensures TotalIn(gs, k) == 0
    decreases |gs|
  {
    if gs != [] {
      assert gs[0] in gs;
      assert GroupKeys(gs[1..]) <= GroupKeys(gs);
      TotalInAbsent(gs[1..], k);
    }
  }

  /** With distinct keys, a group's total is the total of its key. */
  lemma {:induction false} DistinctTotal(gs: seq<Group>, g: Group)
    requires DistinctKeys(gs) && g in gs
    ensures TotalIn(gs, g.KeyOf()) == g.total
    decreases |gs|
  {
    assert gs == [gs[0]] + gs[1..];
    DistinctCons(gs[0], gs[1..]);
    if gs[0] == g {
      TotalInAbsent(gs[1..], g.KeyOf());
    } else {
      assert g in gs[1..];
      DistinctTotal(gs[1..], g);
    }
  }

  /** The grouped, sorted list of the rows `es`: rows are added from the
      last to the first. */
  function Aggregate(es: seq<Entry>): (gs: seq<Group>)
    ensures SortedByName(gs) && DistinctKeys(gs)
    ensures GroupKeys(gs) == EntryKeys(es)
    ensures forall k :: TotalIn(gs, k) == SumFor(es, k)
    decreases |es|
  {
    if es == [] then []
    else
      var rest := Aggregate(es[1..]);
      AddSorted(rest, es[0]);
      AddDistinct(rest, es[0]);
      AddMembers(rest, es[0]);
      EntryKeysCons(es);
      assert forall k :: TotalIn(Add(rest, es[0]), k) == SumFor(es, k) by {
        forall k ensures TotalIn(Add(rest, es[0]), k) == SumFor(es, k) {
          AddTotal(rest, es[0], k);
        }
      }
      Add(rest, es[0])
  }

  lemma EntryKeysCons(es: seq<Entry>)
    requires es != []
    ensures EntryKeys(es) == {es[0].KeyOf()} + EntryKeys(es[1..])
  {
    forall k | k in EntryKeys(es) ensures k in {es[0].KeyOf()} + EntryKeys(es[1..]) {
      var e :| e in es && e.KeyOf() == k;
      if e != es[0] {
        assert e in es[1..];
      }
    }
  }

  /** The computed list is a correct shopping list of its rows. */
  lemma AggregateIsShoppingList(es: seq<Entry>)
    ensures IsShoppingListOf(Aggregate(es), es)
  {
    var gs := Aggregate(es);
    forall g | g in gs ensures g.total == SumFor(es, g.KeyOf()) {
      DistinctTotal(gs, g);
    }
  }

  // ---------------------------------------------------------------------
  // A correct list is determined by its rows, up to the order of groups
  // that share a name.

  /** The groups of a correct list are exactly the keys that occur, each
      with its sum. */
  lemma ShoppingListMembers(gs: seq<Group>, es: seq<Entry>, g: Group)
    requires IsShoppingListOf(gs, es)
    ensures g in gs <==> g.KeyOf() in EntryKeys(es) && g.total == SumFor(es, g.KeyOf())
  {
    if g.KeyOf() in EntryKeys(es) && g.total == SumFor(es, g.KeyOf()) {
      assert g.KeyOf() in GroupKeys(gs);
      var h :| h in gs && h.KeyOf() == g.KeyOf();
      assert h == g;
    }
  }

  lemma {:induction false} DistinctKeysCard(gs: seq<Group>)
    requires DistinctKeys(gs)
    ensures |GroupKeys(gs)| == |gs|
    decreases |gs|
  {
    if gs != [] {
      assert gs == [gs[0]] + gs[1..];
      DistinctCons(gs[0], gs[1..]);
      DistinctKeysCard(gs[1..]);
      assert GroupKeys(gs) == {gs[0].KeyOf()} + GroupKeys(gs[1..]);
    }
  }

  /** Two correct lists of the same rows hold the same groups and have the
      same length; only groups with equal names can be ordered differently. */
  lemma ShoppingListUnique(a: seq<Group>, b: seq<Group>, es: seq<Entry>)
    requires IsShoppingListOf(a, es) && IsShoppingListOf(b, es)
    ensures forall g :: g in a <==> g in b
    ensures |a| == |b|
  {
    forall g ensures g in a <==> g in b {
      ShoppingListMembers(a, es, g);
      ShoppingListMembers(b, es, g);
    }
    DistinctKeysCard(a);
    DistinctKeysCard(b);
  }

  /** Each key that occurs among the rows gets exactly one line of the list,
      whichever ingredient rows carry it: two ingredients with equal name
      and unit merge into one line. */
  lemma OneGroupPerKey(gs: seq<Group>, es: seq<Entry>, k: Key)
    requires IsShoppingListOf(gs, es) && k in EntryKeys(es)
    ensures exists i :: 0 <= i < |gs| && gs[i].KeyOf() == k && gs[i].total == SumFor(es, k)
    ensures forall i, j :: 0 <= i < |gs| && 0 <= j < |gs| && gs[i].KeyOf() == k && gs[j].KeyOf() == k ==> i == j
  {
    assert k in GroupKeys(gs);
    var g :| g in gs && g.KeyOf() == k;
    var i :| 0 <= i < |gs| && gs[i] == g;
  }

  lemma {:induction false} SumForAppend(a: seq<Entry>, b: seq<Entry>, k: Key)
    ensures SumFor(a + b, k) == SumFor(a, k) + SumFor(b, k)
    decreases |a|
  {
    if a == [] {
      assert a + b == b;
    } else {
      assert (a + b)[1..] == a[1..] + b;
      SumForAppend(a[1..], b, k);
    }
  }

  /** The sums do not depend on the order of the rows. */
  lemma {:induction false} SumForPermutation(a: seq<Entry>, b: seq<Entry>, k: Key)
    requires multiset(a) == multiset(b)
    ensures SumFor(a, k) == SumFor(b, k)
    decreases |a|
  {
    if a == [] {
      assert |multiset(b)| == 0;
      assert b == [];
    } else {
      var x := a[0];
      assert x in multiset(b);
      var i :| 0 <= i < |b| && b[i] == x;
      var rest := b[..i] + b[i + 1..];
      MultisetRemoveAt(b, i);
      assert a == [x] + a[1..];
      assert multiset(a[1..]) == multiset(rest);
      SumForPermutation(a[1..], rest, k);
      SumForRemoveAt(b, i, k);
    }
  }

  /** Taking out the row at `i` takes exactly its amount out of its key's sum. */
  lemma SumForRemoveAt(s: seq<Entry>, i: nat, k: Key)
    requires i < |s|
    ensures SumFor(s, k) == SumFor(s[..i] + s[i + 1..], k) + (if s[i].KeyOf() == k then s[i].amount else 0)
  {
    var left, right := s[..i], s[i + 1..];
    assert s == left + ([s[i]] + right);
    SumForAppend(left, [s[i]] + right, k);
    assert ([s[i]] + right)[1..] == right;
    SumForAppend(left, right, k);
  }

  /** Reordering the rows changes nothing about which lists are correct. */
  lemma ShoppingListPermutation(gs: seq<Group>, a: seq<Entry>, b: seq<Entry>)
    requires multiset(a) == multiset(b)
    ensures IsShoppingListOf(gs, a) <==> IsShoppingListOf(gs, b)
  {
    assert forall e :: e in a <==> e in b by {
      forall e ensures e in a <==> e in b {
        assert e in a <==> e in multiset(a);
      }
    }
    assert EntryKeys(a) == EntryKeys(b);
    forall k ensures SumFor(a, k) == SumFor(b, k) {
      SumForPermutation(a, b, k);
    }
  }

  /** The joined rows depend on the cart only through its multiset of rows:
      the order in which recipes were put in the cart does not matter. */
  lemma CartOrderIrrelevant(db: Db, cart: seq<Pair>, user: UserId)
    requires multiset(cart) == multiset(db.cart)
    ensures multiset(Joined(db.(cart := cart), user)) == multiset(Joined(db, user))
    ensures forall gs :: IsShoppingListOf(gs, Joined(db.(cart := cart), user)) <==> IsShoppingListOf(gs, Joined(db, user))
  {
    FlatMapPermutation(cart, db.cart, CartRow(user));
    FlatMapPermutation(CartRecipes(cart, user), CartRecipes(db.cart, user), EntriesOf(db.lines, db.ingredients));
    forall gs ensures IsShoppingListOf(gs, Joined(db.(cart := cart), user)) <==> IsShoppingListOf(gs, Joined(db, user)) {
      ShoppingListPermutation(gs, Joined(db.(cart := cart), user), Joined(db, user));
    }
  }

  lemma CartRecipeFromRow(cart: seq<Pair>, user: UserId, r: RecipeId)
    requires r in CartRecipes(cart, user)
    ensures Pair(user, r) in cart
  {
    FlatMapMember(cart, CartRow(user), r);
    var p :| p in cart && r in CartRow(user)(p);
    assert p == Pair(user, r);
  }

  lemma RecipeEntryFromLine(lines: seq<Line>, ingredients: map<IngredientId, Ingredient>, r: RecipeId, e: Entry)
    requires e in RecipeEntries(lines, ingredients, r)
    ensures exists l :: l in lines && l.recipe == r && l.amount == e.amount
  {
    FlatMapMember(LinesOf(lines, r), LineEntry(ingredients), e);
    var l :| l in LinesOf(lines, r) && e in LineEntry(ingredients)(l);
    assert l in lines && l.recipe == r;
  }

  /** Every joined row comes from a stored line of a recipe in the cart. */
  lemma JoinedFromLines(db: Db, user: UserId, e: Entry)
    requires e in Joined(db, user)
    ensures exists l :: l in db.lines && l.amount == e.amount && Pair(user, l.recipe) in db.cart
  {
    var f := EntriesOf(db.lines, db.ingredients);
    FlatMapMember(CartRecipes(db.cart, user), f, e);
    var r :| r in CartRecipes(db.cart, user) && e in f(r);
    CartRecipeFromRow(db.cart, user, r);
    RecipeEntryFromLine(db.lines, db.ingredients, r, e);
  }

  lemma {:induction false} SumForPositive(es: seq<Entry>, k: Key)
    requires forall e :: e in es ==> e.amount >= MinAmount
    requires k in EntryKeys(es)
    ensures SumFor(es, k) >= MinAmount
    decreases |es|
  {
    assert es == [es[0]] + es[1..];
    SumForNonNegative(es[1..], k);
    if es[0].KeyOf() != k {
      assert k in EntryKeys(es[1..]);
      SumForPositive(es[1..], k);
    }
  }

  lemma {:induction false} SumForNonNegative(es: seq<Entry>, k: Key)
    requires forall e :: e in es ==> e.amount >= 0
    ensures SumFor(es, k) >= 0
    decreases |es|
  {
    if es != [] {
      SumForNonNegative(es[1..], k);
    }
  }

  /** In a valid database every group of the list has a total of at least
      the minimum amount. */
  lemma TotalsPositive(db: Db, user: UserId, gs: seq<Group>)
    requires Valid(db)
    requires IsShoppingListOf(gs, Joined(db, user))
    ensures forall g :: g in gs ==> g.total >= MinAmount
  {
    var es := Joined(db, user);
    forall e | e in es ensures e.amount >= MinAmount {
      JoinedFromLines(db, user, e);
      var l :| l in db.lines && l.amount == e.amount && Pair(user, l.recipe) in db.cart;
      assert LineOk(db, l);
    }
    forall g | g in gs ensures g.total >= MinAmount {
      assert g.KeyOf() in GroupKeys(gs);
      SumForPositive(es, g.KeyOf());
    }
  }
}

=== FILE: strings.dfy ===
/** Text utilities: the string order used for sorting ingredient names,
    decimal rendering of integers (Python's `str(int)`) and line splitting. */
module Strings {

  /** Strict lexicographic order on code points. The model assumes the
      database collates ingredient names this way. */
  predicate Lt(a: string, b: string)
    decreases |a|
  {
    if |a| == 0 then |b| > 0
    else if |b| == 0 then false
    else if a[0] != b[0] then a[0] < b[0]
    else Lt(a[1..], b[1..])
  }

  lemma {:induction false} LtIrreflexive(a: string)
    ensures !Lt(a, a)
    decreases |a|
  {
    if |a| > 0 {
      LtIrreflexive(a[1..]);
    }
  }

  lemma {:induction false} LtTransitive(a: string, b: string, c: string)
    requires Lt(a, b) && Lt(b, c)
    ensures Lt(a, c)
    decreases |a|
  {
    if |a| > 0 && |b| > 0 && |c| > 0 && a[0] == b[0] && b[0] == c[0] {
      LtTransitive(a[1..], b[1..], c[1..]);
    }
  }

  lemma {:induction false} LtTotal(a: string, b: string)
    ensures a == b || Lt(a, b) || Lt(b, a)
    decreases |a|
  {
    if |a| > 0 && |b| > 0 && a[0] == b[0] {
      LtTotal(a[1..], b[1..]);
      if a[1..] == b[1..] {
        assert a == [a[0]] + a[1..];
        assert b == [b[0]] + b[1..];
      }
    }
  }

  lemma LtAsymmetric(a: string, b: string)
    requires Lt(a, b)
    ensures !Lt(b, a)
  {
    if Lt(b, a) {
      LtTransitive(a, b, a);
      LtIrreflexive(a);
    }
  }

  predicate IsDigit(c: char) {
    '0' <= c <= '9'
  }

  predicate AllDigits(s: string) {
    forall i :: 0 <= i < |s| ==> IsDigit(s[i])
  }

  function DigitChar(d: nat): (c: char)
    requires d < 10
    ensures IsDigit(c)
  {
    (('0' as int) + d) as char
  }

  function DigitValue(c: char): (d: nat)
    requires IsDigit(c)
    ensures d < 10 && DigitChar(d) == c
  {
    c as int - '0' as int
  }

  /** Decimal digits of `n`, most significant first, without leading zeros. */
  function NatToString(n: nat): (s: string)
    ensures |s| > 0 && AllDigits(s)
    ensures s[0] == '0' <==> n == 0
    decreases n
  {
    if n < 10 then [DigitChar(n)] else NatToString(n / 10) + [DigitChar(n % 10)]
  }

  /** Python's `str` of an integer: a minus sign before the digits of a negative number. */
  function IntToString(i: int): (s: string)
    ensures |s| > 0 && '\n' !in s && ' ' !in s
  {
    if i < 0 then "-" + NatToString(-i) else NatToString(i)
  }

  function ParseNat(s: string): nat
    requires AllDigits(s)
    decreases |s|
  {
    if s == [] then 0 else 10 * ParseNat(s[..|s| - 1]) + DigitValue(s[|s| - 1])
  }

  function ParseInt(s: string): int
    requires |s| > 0
    requires s[0] == '-' ==> AllDigits(s[1..])
    requires s[0] != '-' ==> AllDigits(s)
  {
    if s[0] == '-' then -(ParseNat(s[1..]) as int) else ParseNat(s)
  }

  lemma {:induction false} ParseNatToString(n: nat)
    ensures ParseNat(NatToString(n)) == n
    decreases n
  {
    var s := NatToString(n);
    if n >= 10 {
      ParseNatToString(n / 10);
      assert s[..|s| - 1] == NatToString(n / 10);
      assert DigitValue(DigitChar(n % 10)) == n % 10;
    } else {
      assert DigitValue(DigitChar(n)) == n;
    }
  }

  /** The rendered number reads back as the number itself. */
  lemma ParseIntToString(i: int)
    ensures ParseInt(IntToString(i)) == i
  {
    if i < 0 {
      assert IntToString(i)[1..] == NatToString(-i);
      ParseNatToString(-i);
    } else {
      ParseNatToString(i);
    }
  }

  predicate NoNewline(s: string) {
    '\n' !in s
  }

  /** Position of the first newline, or the length when there is none. */
  function IndexOfNewline(s: string): (i: nat)
    ensures i <= |s|
    ensures forall j :: 0 <= j < i ==> s[j] != '\n'
    ensures i < |s| ==> s[i] == '\n'
  {
    if s == [] || s[0] == '\n' then 0 else 1 + IndexOfNewline(s[1..])
  }

  /** The lines of a text: the newline-terminated pieces in order, plus a
      final piece when the text does not end with a newline. */
  function SplitLines(s: string): seq<string>
    decreases |s|
  {
    if s == [] then []
    else
      var i := IndexOfNewline(s);
      if i == |s| then [s] else [s[..i]] + SplitLines(s[i + 1..])
  }

  lemma SplitLinesCons(a: string, rest: string)
    requires NoNewline(a)
    ensures SplitLines(a + "\n" + rest) == [a] + SplitLines(rest)
  {
    var s := a + "\n" + rest;
    var i := IndexOfNewline(s);
    assert s[|a|] == '\n';
    assert i == |a|;
    assert s[..i] == a;
    assert s[i + 1..] == rest;
  }
}

=== FILE: validation.dfy ===
/** The `validate` hooks of the input serializers. Each either passes the
    submitted data through or refuses it with a reason; a refusal becomes a
    400 response. */
module Validation {
  import opened Domain

  datatype Refusal =
    | UsernameReserved
    | SamePassword
    | WrongPassword
    | SelfFollow
    | AlreadyFollowing
    | AlreadyFavorited
    | AlreadyInCart
    | BlankField

  datatype Checked<T> = Pass(value: T) | Refuse(reason: Refusal)

  /** The username that would shadow the `users/me/` endpoint. */
  const ReservedUsername: string := "me"

  datatype Registration = Registration(email: string, username: string, firstName: string, lastName: string, password: string)

  /** `max_length` of the username, first name and last name columns. */
  const MaxNameLength := 150
  /** `max_length` of the email column. */
  const MaxEmailLength := 254

  /** A required text field: present, not blank, within its column's length. */
  predicate TextFieldOk(s: string, maxLength: nat) {
    0 < |s| <= maxLength
  }

  /** The per-field checks the registration serializer derives from the user
      model: every field is required and non-blank, the name fields and the
      email fit their columns, and the email has the address format that
      `isEmail` (the framework's email validator, left uninterpreted) accepts.
      The password only has to be non-blank: the serializer's own `validate`
      does not call the parent's, which is where password validation runs. */
  predicate RegistrationFieldsValid(data: Registration, isEmail: string -> bool) {
    && TextFieldOk(data.email, MaxEmailLength) && isEmail(data.email)
    && TextFieldOk(data.username, MaxNameLength)
    && TextFieldOk(data.firstName, MaxNameLength)
    && TextFieldOk(data.lastName, MaxNameLength)
    && |data.password| > 0
  }

  /** NewUserCreateSerializer.validate */
  function ValidateRegistration(data: Registration): (r: Checked<Registration>)
    ensures r.Refuse? <==> data.username == ReservedUsername
    ensures r.Refuse? ==> r.reason == UsernameReserved
    ensures r.Pass? ==> r.value == data
  {
    if data.username == ReservedUsername then Refuse(UsernameReserved) else Pass(data)
  }

  datatype PasswordChange = PasswordChange(newPassword: string, currentPassword: string)

  /** ChangePasswordSerializer.validate. `checkPassword(clear, hash)` is the
      framework's hash comparison, left uninterpreted. The equality test
      runs first, so it is the one reported when both fail. */
  function ValidatePasswordChange(data: PasswordChange, storedHash: string, checkPassword: (string, string) -> bool): (r: Checked<PasswordChange>)
    ensures r.Pass? <==> data.newPassword != data.currentPassword && checkPassword(data.currentPassword, storedHash)
    ensures r.Refuse? && data.newPassword == data.currentPassword ==> r.reason == SamePassword
    ensures r.Refuse? && data.newPassword != data.currentPassword ==> r.reason == WrongPassword
    ensures r.Pass? ==> r.value == data
  {
    if data.newPassword == data.currentPassword then Refuse(SamePassword)
    else if !checkPassword(data.currentPassword, storedHash) then Refuse(WrongPassword)
    else Pass(data)
  }

  /** FollowSerializer.validate: no following oneself, no second follow. */
  function ValidateFollow(follows: seq<Pair>, user: UserId, author: UserId): (r: Checked<()>)
    ensures r.Pass? <==> user != author && Pair(user, author) !in follows
    ensures r.Refuse? ==> r.reason == (if user == author then SelfFollow else AlreadyFollowing)
  {
    if user == author then Refuse(SelfFollow)
    else if Pair(user, author) in follows then Refuse(AlreadyFollowing)
    else Pass(())
  }

  /** FollowSerializer.validate as the code stands when the author id is the
      text captured from the URL: the acting user's integer id never equals
      a string, so the self-follow check never fires and only a second
      follow is refused. */
  function ValidateFollowAsWritten(follows: seq<Pair>, user: UserId, author: UserId): (r: Checked<()>)
    ensures r.Pass? <==> Pair(user, author) !in follows
    ensures r.Refuse? ==> r.reason == AlreadyFollowing
  {
    if Pair(user, author) in follows then Refuse(AlreadyFollowing) else Pass(())
  }

  /** FavoriteRecipeSerializer.validate */
  function ValidateFavorite(favorites: seq<Pair>, user: UserId, recipe: RecipeId): (r: Checked<()>)
    ensures r.Pass? <==> Pair(user, recipe) !in favorites
    ensures r.Refuse? ==> r.reason == AlreadyFavorited
  {
    if Pair(user, recipe) in favorites then Refuse(AlreadyFavorited) else Pass(())
  }

  /** ShoppingCartSerializer.validate */
  function ValidateCartItem(cart: seq<Pair>, user: UserId, recipe: RecipeId): (r: Checked<()>)
    ensures r.Pass? <==> Pair(user, recipe) !in cart
    ensures r.Refuse? ==> r.reason == AlreadyInCart
  {
    if Pair(user, recipe) in cart then Refuse(AlreadyInCart) else Pass(())
  }
}
